=== FILE: README.md ===
# uifactory core, modelled in Dafny

uifactory turns an HTML `<template $name="...">` into a custom element. The
template's attributes become the component's properties, its stylesheets and
scripts are copied into the page, and its body is compiled as a
lodash-style micro-template. This project models the logic of
`src/uifactory.js` that runs once the browser is abstracted away, and proves
properties about it:

- `HtmlEscape`: `escape` and `unescape`, the lodash HTML escaper and
  unescaper;
- `Camel`: `camelize`, the attribute-name to property-name conversion;
- `Microtemplate`: the front end of `microtemplate`. This covers the
  left-to-right delimiter scan, the tokenisation into literal text and
  escape / interpolate / `${}` / evaluate tags, the escaping of literal text
  for a single-quoted string literal, the `variable` check, and the
  generated function text. The `Compile` method is the source's loop,
  proved against the specification function `CompileSpec`;
- `Types`: the values an element holds, the `name:type` key split, the
  type-lookup order and the built-in type registry;
- `Loading`: `loadExtract` as a `Loader` class. Its state is an "appended"
  log, the lifecycle listeners, the `scriptsLoaded` flag and the pending
  `onload`/`onerror` resumptions. Each call is specified by `Run` and
  `CollectListeners`. A resumption chain is proved to append every
  non-listener exactly once, in order, and to collect every listener;
- `Elements`: the custom element class as `UIElement`. Its fields are
  `$updating`, connection, `$data`, the attribute map, `$properties`,
  outstanding deferred parses, a render counter and the defined
  accessors. It models:
  - `update` with its re-entrancy guard;
  - the follow-up update when a deferred parse settles;
  - `attributeChangedCallback`;
  - the three passes of `connectedCallback`.

  Each method is proved against the value-level functions `ApplyAll`,
  `MergeAttributes`, `AddAccessors` and `Connect`;
- `Registration`: `registerElement`'s attribute split, and the write-once
  component registry of `registerComponent` as a `Window` class;
- `Dicts` and `Common`: JavaScript objects as dictionaries with insertion
  order, and option/result wrappers.

JavaScript strings are `seq<char>`, sequences of Unicode scalar values
(see "Left out" for what that leaves aside). A JavaScript
exception is an explicit error result (`Result`, `Option`, or an `ok`
flag that is false when a parse threw).

## Model

| member | source | states |
|---|---|---|
| HtmlEscape.EntityOf | src/uifactory.js:437-443 | each of `& < > " '` maps to an entity of the form `&...;` |
| HtmlEscape.EscapeChars | src/uifactory.js:444-448 | the global replace leaves no `< > " '`, and a string without special characters is returned unchanged |
| HtmlEscape.Escape | src/uifactory.js:446-450 | `escape` output is markup-free; a missing argument gives `""`; text without special characters is returned as it is |
| HtmlEscape.LeadingZeros | src/uifactory.js:427 | the `(0+)?` group: the count of leading `0`s, followed by a non-`0` |
| HtmlEscape.MatchEntity | src/uifactory.js:427 | an entity match starts with `&` and is at least four characters long |
| HtmlEscape.UnescapeChars | src/uifactory.js:429-432 | the global replace never lengthens the text |
| HtmlEscape.Unescape | src/uifactory.js:429-433 | a missing argument gives `""`; the result is never longer than the input |
| HtmlEscape.UnescapeCharsNoEntity | src/uifactory.js:430-432 | the `reHasEscapedHtml` guard is only a shortcut: without an entity the replace changes nothing |
| HtmlEscape.EntityRoundTrip | src/uifactory.js:420-443 | each entity `escape` writes is read back by `unescape` as its character |
| HtmlEscape.UnescapeEscapeChars | src/uifactory.js:420-450 | the two global replaces are inverse: unescaping the escaped text gives the text back |
| HtmlEscape.UnescapeEscape | src/uifactory.js:420-450 | `unescape(escape(s)) == s` for every string |
| HtmlEscape.EscapeUnescapeNotIdentity | src/uifactory.js:427-450 | the other direction fails: `&#039;` comes back as `&#39;` |
| Camel.UpperCase | src/uifactory.js:70 | `toUpperCase` on ASCII letters; other characters are kept |
| Camel.Camelize | src/uifactory.js:70 | `camelize` never lengthens a name, and a name it does not shorten is unchanged |
| Camel.CamelizeNoHyphen | src/uifactory.js:70 | a name without `-` is returned unchanged |
| Camel.CamelizeAppend | src/uifactory.js:70 | the scan is left to right: a prefix without `-` passes through and leaves the rest alone |
| Camel.CamelizeKebab | src/uifactory.js:69-70 | for every kebab-case name, `camelize` drops each `-` and upper-cases the next letter (`font-size` to `fontSize`) |
| Types.UpToColon | src/uifactory.js:278 | the text before the first `:` |
| Types.SplitName | src/uifactory.js:278 | `key.split(':')` gives a name and a type, neither containing `:` |
| Types.SplitJoin | src/uifactory.js:278 | `name:type` splits back into `name` and `type`; a key with no `:` is all name with no type |
| Types.TypeKey | src/uifactory.js:279 | lookup order: the explicit `:type`, then the declared property type, then `string`; the key is always registered |
| Types.StringType | src/uifactory.js:25-28 | `types.string` parses to the text itself and can stringify |
| Types.UrlType | src/uifactory.js:40-63 | the fetch types return a thenable exactly for non-empty text, and cannot stringify |
| Types.Builtins | src/uifactory.js:24-63 | the built-in registry has exactly the ten types; only the three fetch types lack `stringify` |
| Microtemplate.FindClose | src/uifactory.js:467-469 | the lazy `%>` search returns a position at or after its start where `%>` occurs |
| Microtemplate.FindCloseFirst | src/uifactory.js:467-469 | the lazy match takes the first `%>`, and none exists when it fails |
| Microtemplate.EsClose | src/uifactory.js:465 | the `${...}` closing brace found is a `}` within the text |
| Microtemplate.EsCloseBody | src/uifactory.js:465 | the body up to that brace is in the language of the `${}` group (no bare `}`; backslash escapes) |
| Microtemplate.EsCloseOnly | src/uifactory.js:465 | any `}` whose body from the group's start is in the group's language is the brace `EsClose` finds, so the match is unique |
| Microtemplate.EsCloseComplete | src/uifactory.js:465 | when `EsClose` finds nothing, no `}` closes a body in the group's language, so `${...}` cannot match there; when it finds one, it is the only such brace |
| Microtemplate.DelimAt | src/uifactory.js:534 | a delimiter match has the kind tried and a non-empty length within the text |
| Microtemplate.MatchAt | src/uifactory.js:517-522 | a match of the delimiter alternation has positive length and lies within the text |
| Microtemplate.MatchAtRaw | src/uifactory.js:517-522 | a match spans exactly its opening delimiter, its group and its closing delimiter |
| Microtemplate.EncodeChar | src/uifactory.js:471-484 | the encoding of one character never contains a line terminator |
| Microtemplate.EscapeLiteral | src/uifactory.js:538 | escaped literal text never contains a line terminator, so it cannot break the string literal's line |
| Microtemplate.ReadEncodeChar | src/uifactory.js:473-484 | a JavaScript engine reads `escapeStringChar`'s output back as the character it encodes |
| Microtemplate.ReadEscapeLiteral | src/uifactory.js:471-484 | reading the escaped literal as a JavaScript single-quoted string gives back the original slice |
| Microtemplate.OnMatch | src/uifactory.js:534-552 | the `replace` callback appends the escaped literal since `index`, then the tag's snippet, and sets `isEscaping` / `isEvaluating` for a non-empty escape / evaluate group |
| Microtemplate.ReplaceStep | src/uifactory.js:534-557 | one step of the global replace keeps the source text and the flags equal to those of the pieces scanned so far |
| Microtemplate.ScanLast | src/uifactory.js:534-559 | when the search reaches the end, the scan so far plus the pending literal is the whole token list |
| Microtemplate.ScanEnd | src/uifactory.js:534-559 | the final empty `$` match flushes the last literal and completes the source body |
| Microtemplate.Compile | src/uifactory.js:503-601 | `microtemplate(s, {variable})` generates `CompileSpec`'s text; it throws exactly when `variable` is non-empty and has a forbidden character |
| Microtemplate.EmitMatch | src/uifactory.js:541-551 | what one match adds to the source and to the two flags |
| Microtemplate.ScanFromRebuilds | src/uifactory.js:534-557 | the literal slices and the raw tag texts, concatenated, rebuild the scanned text |
| Microtemplate.RebuildsAfterMatch | src/uifactory.js:534-557 | if the text after a match is rebuilt from its tokens, so is the text from the pending literal on |
| Microtemplate.TokenizeRebuilds | src/uifactory.js:534-557 | tokenising and flattening gives back the template exactly |
| Microtemplate.TokenizeAlternates | src/uifactory.js:534-559 | the tokens alternate literal, tag, literal, ..., starting and ending with a literal |
| Microtemplate.TokenizePlain | src/uifactory.js:517-559 | text with no `<` and no `$` is a single literal |
| Microtemplate.EvaluateNeverShadows | src/uifactory.js:517-522 | at equal offsets escape and interpolate win over evaluate: an evaluate tag whose group starts with `-` or `=` is exactly `<%-%>` or `<%=%>` |
| Microtemplate.EscapeWithoutBodyIsEvaluate | src/uifactory.js:467-468 | `<%-%>` is read as an evaluate tag with group `-` |
| Microtemplate.NoVariableWrapsWith | src/uifactory.js:563-566 | without `variable` the body is wrapped in `with (obj) { ... }`, and the function takes `obj` |
| Microtemplate.VariableIsParameter | src/uifactory.js:563-595 | an accepted `variable` becomes the function's parameter, and no `with` is added |
| Dicts.Dict.Put | src/uifactory.js:370 | setting an object key keeps an existing key's place and appends a new one, and keeps the dictionary well formed |
| Dicts.Empty | src/uifactory.js:360 | `{}` is a well-formed empty dictionary |
| Loading.Run | src/uifactory.js:114-147 | a call appends only indices from `start` on, and it stopped at an external script only if it appended one |
| Loading.RunSequential | src/uifactory.js:114-147 | a call appends no listener, appends strictly increasing indices, and appends an external script only as its last index, exactly when it stopped there |
| Loading.AppendLog | src/uifactory.js:142 | one `appendChild` per appended index |
| Loading.ProgressStart | src/uifactory.js:111-114 | the loop state holds at `start` |
| Loading.ProgressListener | src/uifactory.js:120-131 | an `on*` element adds its listeners and is not appended; the scan goes on |
| Loading.ProgressInternal | src/uifactory.js:132-142 | an element that is neither a listener nor external is appended and the scan goes on |
| Loading.ProgressExternal | src/uifactory.js:139-146 | an external script is appended last; the call ends and resumes at `index + 1` |
| Loading.ProgressEnd | src/uifactory.js:147-149 | running off the end completes the call; it reaches the last element exactly when `start` was within the list |
| Loading.RunSplits | src/uifactory.js:111-147 | a call appends the non-listeners up to its stop; the rest is left to the resumption |
| Loading.ChainAppendsNonListeners | src/uifactory.js:111-153 | over all resumptions every non-listener is appended exactly once, in index order, and no listener is |
| Loading.CollectListenersSplit | src/uifactory.js:120-126 | listener collection over two consecutive ranges is collection over their union |
| Loading.ChainCollectsListeners | src/uifactory.js:120-141 | over all resumptions every listener script is collected |
| Loading.RunEndWithin | src/uifactory.js:111-114 | a call from the first element stops within the list |
| Loading.Loader.constructor | src/uifactory.js:103-106 | a component starts with nothing appended, no listeners and scripts not loaded |
| Loading.Loader.LoadExtract | src/uifactory.js:111-153 | `loadExtract` appends `Run`'s elements in order and collects the listeners it passes. An external script leaves one resumption at the next index. `scriptsLoaded` becomes true exactly when the body pass reaches the end |
| Loading.Loader.Settle | src/uifactory.js:141 | an external script's `onload`/`onerror` removes its resumption and runs `loadExtract` from the next index |
| Loading.Loader.ExtractTemplate | src/uifactory.js:108-109 | head then body, each from the first element; the scripts count as loaded exactly when the body pass met no external script |
| Elements.EntryTypeKey | src/uifactory.js:278-279 | the type an entry is parsed with is always registered |
| Elements.EntryRules | src/uifactory.js:276-299 | per entry: type lookup order; a throwing parse changes nothing; the result (`null` for a thenable) is stored under the camel-cased name and nothing else in `$data` changes; a thenable queues a follow-up; the attribute is written exactly when `attr` is on and the value is a string or the type can stringify, and then holds the text or `stringify` of the stored value while no other attribute changes |
| Elements.NoParseKeepsString | src/uifactory.js:281 | under `noparse` a string is stored as it is |
| Elements.SettledEntry | src/uifactory.js:284-291 | a settled deferred parse stores its value under the camel-cased name and leaves the attributes alone |
| Elements.StringEntryAgrees | src/uifactory.js:294-298 | a string-typed entry leaves `$data` and the attribute holding the same text |
| Elements.ApplyAllStops | src/uifactory.js:276-300 | once a parse throws, the later entries are not looked at |
| Elements.QuietKeepsAttributes | src/uifactory.js:297 | with `attr: false` no attribute is written |
| Elements.ApplyAllFrame | src/uifactory.js:276-300 | an update touches only its own entries' `$data` keys and only adds deferrals |
| Elements.ApplyAllAttributeFrame | src/uifactory.js:295-299 | an update writes back only its own entries' attributes: any other attribute keeps its presence and text |
| Elements.ApplyAllOne | src/uifactory.js:276 | a one-entry update is that entry's rule |
| Elements.AccessorsSound | src/uifactory.js:226-237 | accessors never shadow existing members and are defined once each; every property becomes reachable under its camel-cased name |
| Elements.MergeGrows | src/uifactory.js:214-218 | the attribute pass only appends properties and keeps `$properties` well formed |
| Elements.MergeDeclares | src/uifactory.js:214-218 | every typed instance attribute declares its property and sets the typed flag |
| Elements.TypedAttributeOverrides | src/uifactory.js:215-222 | a `name:type` attribute makes `type` the property's type and the text its value; the text is parsed with that type, a throw ends the pass, and the returned value (`null` while deferred) is what `$data` holds; with updates dropped nothing changes |
| Elements.AttributeOverridesDefault | src/uifactory.js:209-223 | instance attributes win over template defaults: an untyped attribute for a property, met last, is parsed with the property's type and `$data` holds what the parse returns (`null` while deferred); a throw ends the pass |
| Elements.MergeAttributesAppend | src/uifactory.js:209-223 | the attribute pass over two lists in a row is the pass over the second from where the first left off |
| Elements.MergeAttributesFrame | src/uifactory.js:209-223 | attributes whose properties have other camel-cased names leave `$data[k]` present or absent as it was, with the same value |
| Elements.AttributeOverridesDefaultAnywhere | src/uifactory.js:209-223 | an untyped attribute for a property decides `$data` for it wherever it stands, unless a later attribute names a property with the same camel-cased name; its throw ends the pass |
| Elements.MergeAttributesStops | src/uifactory.js:214-223 | once a parse throws, the later attributes are not looked at |
| Elements.UIElement.constructor | src/uifactory.js:167-198 | `$properties` is a copy of the component's properties, `$data` is empty, and the observed attributes are the property names |
| Elements.UIElement.Update | src/uifactory.js:266-308 | a call during an update or before connection changes nothing. Otherwise the entries are applied until a parse throws, the element is rendered only if all went through with `render` on and scripts loaded, and `$updating` ends false |
| Elements.UIElement.ApplyEntries | src/uifactory.js:276-300 | the loop of `update` is `ApplyAll` |
| Elements.UIElement.ApplyOne | src/uifactory.js:277-299 | the loop body is the entry rule |
| Elements.UIElement.SetAttribute | src/uifactory.js:297-298 | writing an attribute during an update changes only that attribute; the nested `attributeChangedCallback` update is dropped |
| Elements.UIElement.AttributeChanged | src/uifactory.js:317-319 | an attribute change is an update with `{attr: false, render: true}` |
| Elements.UIElement.Resolve | src/uifactory.js:284-291 | a settled deferred parse leaves the pending list and updates its property with `{render: true, noparse: true, attr: false}`, rendering once when that goes through and scripts have loaded; a dropped update changes nothing else; accessors and observation are unchanged |
| Elements.UIElement.ConnectedCallback | src/uifactory.js:201-241 | `connectedCallback` applies defaults, then instance attributes, then accessors, then observation, ending in `Connect`'s state; the element is connected and nothing is rendered |
| Elements.UIElement.ApplyDefaults | src/uifactory.js:209-211 | each property's default is applied quietly, in order; the attributes do not change |
| Elements.UIElement.ApplyDefault | src/uifactory.js:209-211 | one default is applied quietly: the pass so far extends by that entry's rule, or nothing changes while updates are dropped |
| Elements.UIElement.MergeInstanceAttributes | src/uifactory.js:213-223 | the attribute pass is `MergeAttributes` over the element's attributes in order |
| Elements.UIElement.MergeAttribute | src/uifactory.js:214-223 | one attribute: a typed one declares its property; a property is updated quietly |
| Elements.UIElement.DefineAccessors | src/uifactory.js:226-237 | accessors are defined for properties whose camel-cased name the element lacks; nothing else changes |
| Registration.SplitAll | src/uifactory.js:360-371 | the attribute loop is `SplitAttributes` from `{name: '', properties: {}}` |
| Registration.SplitOne | src/uifactory.js:362-371 | the loop body is the one-attribute split |
| Registration.Assign | src/uifactory.js:373-375 | `Object.assign(config, options)` is `WithOptions`, whose override behaviour the three lemmas below state |
| Registration.WithOptionsKeys | src/uifactory.js:373-375 | `Object.assign` adds exactly the keys the options set, and the keys already present keep their order ahead of the new ones |
| Registration.WithOptionsLastWins | src/uifactory.js:373-375 | the options override: a key an option sets holds the value of the last option that sets it |
| Registration.WithOptionsKeeps | src/uifactory.js:373-375 | a key no option sets keeps the value the attribute split gave it |
| Registration.RegisterElement | src/uifactory.js:357-375 | the configuration is the attribute split, then the unescaped inner HTML as template, then the options; a throwing attribute aborts it |
| Registration.ErrorPersists | src/uifactory.js:362-371 | a throwing attribute ends the registration with that error |
| Registration.SplitAttributeKeys | src/uifactory.js:363-370 | one attribute adds at most its own key, to the side its `$` picks |
| Registration.SplitValid | src/uifactory.js:360-371 | the split keeps properties and settings well formed |
| Registration.SplitProperties | src/uifactory.js:368-370 | the properties are exactly the names of the attributes without `$` |
| Registration.SplitSettings | src/uifactory.js:365-367 | the settings are exactly `name` and the `$`-keys without their `$` |
| Registration.LastPlainAttributeWins | src/uifactory.js:363-370 | the last plain attribute for a name decides its type (default `string`) and value |
| Registration.UnknownTypeThrows | src/uifactory.js:367 | a `$`-attribute of an unregistered type makes the registration throw, wherever it is |
| Registration.PlainAttributesSucceed | src/uifactory.js:368-370 | attributes without `$` never make registration throw |
| Registration.Window.RegisterComponent | src/uifactory.js:96-109 | a defined name only warns `Can't redefine component <name>` and changes nothing else; otherwise the template is extracted and the name is defined once |

## Left out

- Browser plumbing is not modelled: the DOM, events (`preconnect`, `connect`, `render`, `disconnect`), `MutationObserver`, `customElements.define`'s name validation, `console`, `fetch` and `new Function`/`with`. Parses are opaque functions returning a value, a thenable or a throw.
- The template DOM is taken as given. `registerComponent`'s `querySelectorAll` of stylesheets and scripts is the two `Extract` lists of `ExtractTemplate`, and the `<script type="text/html">` choice is not modelled.
- Rendering (`renderComponent`: compiling, slot replacement, `$render`, `$ready`) is a render counter. The render `connectedCallback` schedules once scripts resolve, and the listener attachment there, are not modelled.
- Building the template function (`Function(...)` with `sourceURL`) and the empty-string cleanup regexes (src/uifactory.js:486-488, 574-576) are not modelled. `CompileSpec` describes the source text before that cleanup.
- `microtemplate` options other than `variable` are not modelled: custom delimiters, `imports` and `sourceURL`. The model uses the default delimiters.
- `registerURL`, `registerDocument`, `uifactory.register`, the `import` auto-load, `disconnectedCallback` and the root `uifactory.js`, `build.js` and test files are not part of this model.
- Camel.UpperCase: only ASCII letters are upper-cased; JavaScript's full Unicode `toUpperCase` is not modelled.
- HTML lower-cases attribute names, both when it parses them and when `setAttribute` writes them (so an update of `fontSize` writes the attribute `fontsize`). The model takes attribute names as the browser reports them and writes attribute names unchanged.
- `Object.entries` puts integer-like keys first. The model keeps insertion order for every key.
- Elements.UIElement.DefineAccessors: `property in this` is a fixed set `hostProps` plus the accessors defined so far. The prototype chain and later changes to it are not modelled, and the getter and setter bodies are not modelled.
- Registration.RegisterElement: `$`-attributes are parsed with the name "" and empty data, where the source passes `undefined` for both. A `$properties` or `$template` attribute, and options named `properties` or `template`, are kept as settings rather than replacing the properties or template.
- Registration.Window.RegisterComponent: the component's configuration is stored as given; `config.window` (registering on another window) is not modelled.
- Strings are sequences of Unicode scalar values: lone surrogates cannot be represented, a character outside the Basic Multilingual Plane is one `char` where JavaScript counts two code units, and offsets and lengths are counted in characters, not code units.
- Elements.MergeOne: `name in this.$properties` is modelled as membership among the own keys of `$properties`. Inherited names such as `constructor` or `__proto__`, for which the source's `in` is also true, are not treated as properties, so an instance attribute with such a name updates nothing in the model.
- Elements.ApplyEntry: `setAttribute` is modelled as always succeeding. The source throws for an empty or invalid attribute name (for example the entry key `:number`, whose property name is empty), which aborts the update after `$data` was written; the model writes the attribute and carries on. Likewise `stringify` is modelled as total: the source's `JSON.stringify` (the number, boolean, array, object, json and js types) throws for a cyclic value or a BigInt, and a registered `stringify` may throw, which aborts the update after `$data` was written, with no attribute set, the later entries skipped and no render; the model writes the attribute, carries on and may render.
- HtmlEscape.Escape: only strings and a missing argument are modelled. The template's `__e` passes arbitrary values, for which the source returns `''` for falsy values such as `0` and the value itself for other non-strings such as `5`.
- Types.TypeKey: `uifactory.types[...]` is modelled as a lookup among the registered type names only. The source looks the name up in a plain object, so an inherited name such as `constructor` (from the key `x:constructor`) finds `Object`, whose `parse` is undefined, and the update throws a `TypeError`; the model falls back to `string` instead.
- Elements.EntryTypeKey: for the same reason, an entry whose explicit or declared type is an inherited `Object.prototype` name such as `constructor` or `toString` throws in the source and is parsed as a `string` in the model.
- Loading.AddListeners: `eventScripts` is modelled as holding only the events added so far. In the source it is a plain object, so a listener attribute such as `onconstructor` or `on__proto__` finds an inherited value without `push`, and `loadExtract` throws a `TypeError`; the model adds the listener.
- Promise rejection of a deferred parse is not modelled: a pending deferral is only ever resolved with a value.

=== FILE: camelize.dfy ===
/**
 * `camelize`: the attribute-to-property name conversion, a global
 * `replace(/-./g, x => x.toUpperCase()[1])`. Each '-' followed by a
 * character other than a line terminator is dropped and that character is
 * upper-cased; the scan resumes after the pair.
 */
module Camel {
  import opened Common

  /** Upper-casing of one character (ASCII letters; everything else is kept). */
  function UpperCase(c: char): (u: char)
    ensures 'a' <= c <= 'z' ==> 'A' <= u <= 'Z' && u as int == c as int - 32
    ensures !('a' <= c <= 'z') ==> u == c
  {
    if 'a' <= c <= 'z' then (c as int - 32) as char else c
  }

  predicate HasHyphen(s: string)
  {
    exists i :: 0 <= i < |s| && s[i] == '-'
  }

  function Camelize(s: string): (r: string)
    ensures |r| <= |s|
    ensures |r| == |s| ==> r == s
  {
    if |s| >= 2 && s[0] == '-' && !IsLineTerminator(s[1]) then [UpperCase(s[1])] + Camelize(s[2..])
    else if s == [] then []
    else [s[0]] + Camelize(s[1..])
  }

  // ---------------------------------------------------------------------------
  // Properties

  /** A name without '-' is already camel-cased. */
  lemma {:induction false} CamelizeNoHyphen(s: string)
    requires !HasHyphen(s)
    ensures Camelize(s) == s
  {
    if s != [] {
      assert s[0] != '-';
      assert !HasHyphen(s[1..]) by {
        forall i | 0 <= i < |s[1..]| ensures s[1..][i] != '-' { assert s[1..][i] == s[i + 1]; }
      }
      CamelizeNoHyphen(s[1..]);
    }
  }

  /** A prefix without '-' passes through unchanged and does not disturb the rest. */
  lemma {:induction false} CamelizeAppend(a: string, b: string)
    requires !HasHyphen(a)
    ensures Camelize(a + b) == a + Camelize(b)
  {
    if a != [] {
      assert a[0] != '-';
      assert (a + b)[1..] == a[1..] + b;
      assert !HasHyphen(a[1..]) by {
        forall i | 0 <= i < |a[1..]| ensures a[1..][i] != '-' { assert a[1..][i] == a[i + 1]; }
      }
      CamelizeAppend(a[1..], b);
    } else {
      assert a + b == b;
    }
  }

  /** `kebab-case` words joined with '-'. */
  function JoinKebab(words: seq<string>): string
    requires |words| >= 1
  {
    if |words| == 1 then words[0] else words[0] + "-" + JoinKebab(words[1..])
  }

  /** Upper-case the first character. */
  function Capitalize(w: string): string
  {
    if w == [] then [] else [UpperCase(w[0])] + w[1..]
  }

  /** Reference definition: the first word as is, every later word capitalised. */
  function CamelJoin(words: seq<string>): string
    requires |words| >= 1
  {
    if |words| == 1 then words[0] else words[0] + Capitalize(CamelJoin(words[1..]))
  }

  /** Words a kebab-case attribute name is made of: no '-' inside, and every later word non-empty. */
  predicate KebabWords(words: seq<string>)
  {
    && |words| >= 1
    && (forall i :: 0 <= i < |words| ==> !HasHyphen(words[i]))
    && (forall i :: 1 <= i < |words| ==> |words[i]| > 0 && !IsLineTerminator(words[i][0]))
  }

  lemma {:induction false} CamelJoinHead(words: seq<string>)
    requires KebabWords(words) && |words[0]| > 0
    ensures |CamelJoin(words)| > 0 && CamelJoin(words)[0] == words[0][0]
  {
  }

  lemma {:induction false} JoinKebabHead(words: seq<string>)
    requires KebabWords(words) && |words[0]| > 0
    ensures |JoinKebab(words)| > 0 && JoinKebab(words)[0] == words[0][0]
  {
  }

  /** camelize("font-size") == "fontSize", stated for every kebab-case name. */
  lemma {:induction false} CamelizeKebab(words: seq<string>)
    requires KebabWords(words)
    ensures Camelize(JoinKebab(words)) == CamelJoin(words)
  {
    if |words| == 1 {
      CamelizeNoHyphen(words[0]);
    } else {
      var tail := words[1..];
      assert KebabWords(tail) by {
        forall i | 0 <= i < |tail| ensures !HasHyphen(tail[i]) { assert tail[i] == words[i + 1]; }
        forall i | 1 <= i < |tail| ensures |tail[i]| > 0 && !IsLineTerminator(tail[i][0]) { assert tail[i] == words[i + 1]; }
      }
      var j := JoinKebab(tail);
      CamelizeKebab(tail);
      JoinKebabHead(tail);
      CamelJoinHead(tail);
      CamelizeAppend(words[0], "-" + j);
      assert words[0] + "-" + j == words[0] + ("-" + j);
      assert ("-" + j)[2..] == j[1..];
      assert Camelize(j) == [j[0]] + Camelize(j[1..]);
      assert Camelize(j[1..]) == CamelJoin(tail)[1..];
    }
  }
}

=== FILE: common.dfy ===
/** Small result wrappers shared by the other modules. */
module Common {

  datatype Option<+T> = None | Some(value: T)

  datatype Result<+T, +E> = Success(value: T) | Failure(error: E)

  /** The four characters a JavaScript `.` does not match (section 22.2.2.7 of ECMA-262). */
  predicate IsLineTerminator(c: char)
  {
    c == '\n' || c == '\r' || c == '\U{2028}' || c == '\U{2029}'
  }

  /** `t` occurs in `s` at offset `p`. */
  predicate StartsAt(s: string, p: nat, t: string)
  {
    p + |t| <= |s| && s[p..p + |t|] == t
  }
}

=== FILE: dict.dfy ===
/**
 * A JavaScript object used as a dictionary: its own string keys in
 * insertion order (the order `Object.entries`, `Object.keys` and `for ... in`
 * visit them) and the value of each key.
 */
module Dicts {

  datatype Dict<V> = Dict(keys: seq<string>, vals: map<string, V>)
  {
    /** Every key is listed once, and exactly the listed keys have values. */
    ghost predicate Valid()
    {
      (forall i, j :: 0 <= i < j < |keys| ==> keys[i] != keys[j])
      && (forall k :: k in vals <==> k in keys)
    }

    /** `obj[k] = v`: an existing key keeps its place, a new key goes last. */
    function Put(k: string, v: V): (d: Dict<V>)
      ensures d.vals == vals[k := v]
      ensures |keys| <= |d.keys| && d.keys[..|keys|] == keys
      ensures Valid() ==> d.Valid()
      ensures Valid() ==> (k in keys ==> d.keys == keys) && (k !in keys ==> d.keys == keys + [k])
    {
      if k in vals then Dict(keys, vals[k := v]) else Dict(keys + [k], vals[k := v])
    }
  }

  function Empty<V>(): (d: Dict<V>)
    ensures d.Valid() && d.keys == [] && d.vals == map[]
  {
    Dict([], map[])
  }
}

=== FILE: element.dfy ===
/**
 * The custom element class every component gets (`UIFactory`): the
 * `update` pipeline over `$data` and the element's attributes, its
 * re-entrancy guard `$updating`, the follow-up update when a deferred parse
 * settles, `attributeChangedCallback`, and the property merge of
 * `connectedCallback`.
 */
module Elements {
  import opened Common
  import opened Dicts
  import opened Types
  import opened Camel
  import opened Loading

  /**
   * The second argument of `update`. `attr` and `render` are filled in from
   * `{attr: true, render: true}` when absent.
   */
  datatype Options = Options(attr: Option<bool>, render: Option<bool>, noparse: bool)

  predicate AttrOn(o: Options)
  {
    o.attr.None? || o.attr.value
  }

  predicate RenderOn(o: Options)
  {
    o.render.None? || o.render.value
  }

  /** `{attr: false, render: false}`: the updates `connectedCallback` makes. */
  const Quiet := Options(Some(false), Some(false), false)

  /** `{attr: false, render: true}`: the update `attributeChangedCallback` makes. */
  const Reflect := Options(Some(false), Some(true), false)

  /** `{render: true, noparse: true, attr: false}`: the update made when a deferred parse settles. */
  const Settled := Options(Some(false), Some(true), true)

  /** An entry of `$properties`: its declared type ("" when it has none) and its default value. */
  datatype PropInfo = PropInfo(typ: string, value: Value)

  /** A parse that returned a thenable: when `promise` settles, `propname` is updated with its result. */
  datatype Deferral = Deferral(promise: nat, propname: string)

  /** What `update` changes: `$data`, the element's attributes, and the outstanding deferred parses. */
  datatype ElementState = ElementState(data: map<string, Value>, attributes: Dict<string>, pending: seq<Deferral>)

  /** The state after a run of entries, and whether it ran to the end (`false`: a parse threw). */
  datatype Applied = Applied(state: ElementState, ok: bool)

  /** `$properties[propname].type`, or "" when there is no such property or it declares no type. */
  function DeclaredType(props: Dict<PropInfo>, propname: string): string
  {
    if propname in props.vals then props.vals[propname].typ else ""
  }

  /** The registry key an entry `key` is parsed with. */
  function EntryTypeKey(types: Registry, props: Dict<PropInfo>, key: string): (k: string)
    requires "string" in types
    ensures k in types
  {
    var (propname, typename) := SplitName(key);
    TypeKey(types, typename, DeclaredType(props, propname))
  }

  /** `(isString && !options.noparse) ? type.parse(value, propname, this.$data) : value`. */
  function Outcome(t: TypeDesc, value: Value, propname: string, data: map<string, Value>, noparse: bool): Parsed
  {
    if value.Str? && !noparse then t.parse(value.s, propname, data) else Returned(value)
  }

  /**
   * One entry `key: value` of an `update`, on a connected element that is
   * not already updating; `None` when the parse throws.
   */
  function ApplyEntry(st: ElementState, key: string, value: Value, o: Options, types: Registry, props: Dict<PropInfo>): Option<ElementState>
    requires "string" in types
  {
    var propname := SplitName(key).0;
    var t := types[EntryTypeKey(types, props, key)];
    match Outcome(t, value, propname, st.data, o.noparse)
    case Threw => None
    case Returned(res) =>
      var data := st.data[Camelize(propname) := if res.Thenable? then Null else res];
      var pending := if res.Thenable? then st.pending + [Deferral(res.id, propname)] else st.pending;
      var attributes :=
        if AttrOn(o) && (value.Str? || t.stringify.Some?) then
          st.attributes.Put(propname, if value.Str? then value.s else t.stringify.value(value, propname, data))
        else st.attributes;
      Some(ElementState(data, attributes, pending))
  }

  /** The entries of one `update`, in order, stopping at the first parse that throws. */
  function ApplyAll(st: ElementState, entries: seq<(string, Value)>, o: Options, types: Registry, props: Dict<PropInfo>): Applied
    requires "string" in types
    decreases |entries|
  {
    if entries == [] then Applied(st, true)
    else
      var before := ApplyAll(st, entries[..|entries| - 1], o, types, props);
      if !before.ok then before
      else
        var e := entries[|entries| - 1];
        match ApplyEntry(before.state, e.0, e.1, o, types, props)
        case None => Applied(before.state, false)
        case Some(s) => Applied(s, true)
  }

  // ---------------------------------------------------------------------------
  // One entry

  /**
   * The rules of one entry: the type is the explicit `:type`, else the
   * declared one, else `string`; a throwing parse changes nothing; the
   * parse result (or `null` for a deferred one) is stored under the
   * camel-cased name and nothing else in `$data` changes; a deferred parse
   * is queued under the plain name; and the attribute is written exactly
   * when `attr` is on and the value is a string or the type can stringify:
   * the text itself, or what `stringify` makes of the stored value, under
   * the plain name, with every other attribute left as it was.
   */
  lemma EntryRules(st: ElementState, key: string, value: Value, o: Options, types: Registry, props: Dict<PropInfo>)
    requires "string" in types
    ensures var (propname, typename) := SplitName(key);
      var k := EntryTypeKey(types, props, key);
      && (typename != "" && typename in types ==> k == typename)
      && (typename == "" && DeclaredType(props, propname) != "" && DeclaredType(props, propname) in types ==> k == DeclaredType(props, propname))
      && (k != "string" ==> k == typename || k == DeclaredType(props, propname))
    ensures var propname := SplitName(key).0;
      var t := types[EntryTypeKey(types, props, key)];
      var outcome := Outcome(t, value, propname, st.data, o.noparse);
      var r := ApplyEntry(st, key, value, o, types, props);
      && (r.None? <==> outcome.Threw?)
      && (r.Some? ==>
            && r.value.data.Keys == st.data.Keys + {Camelize(propname)}
            && (forall n :: n in st.data && n != Camelize(propname) ==> r.value.data[n] == st.data[n])
            && r.value.data[Camelize(propname)] == (if outcome.v.Thenable? then Null else outcome.v)
            && r.value.pending == st.pending + (if outcome.v.Thenable? then [Deferral(outcome.v.id, propname)] else [])
            && (AttrOn(o) && (value.Str? || t.stringify.Some?) ==>
                  r.value.attributes.vals == st.attributes.vals[propname :=
                    if value.Str? then value.s else t.stringify.value(value, propname, r.value.data)])
            && (!(AttrOn(o) && (value.Str? || t.stringify.Some?)) ==> r.value.attributes == st.attributes))
  {
  }

  /** A string under `noparse` is stored as it is, whatever its type. */
  lemma NoParseKeepsString(st: ElementState, key: string, s: string, o: Options, types: Registry, props: Dict<PropInfo>)
    requires "string" in types && o.noparse
    ensures var r := ApplyEntry(st, key, Str(s), o, types, props);
      r.Some? && Camelize(SplitName(key).0) in r.value.data && r.value.data[Camelize(SplitName(key).0)] == Str(s) && r.value.pending == st.pending
  {
  }

  /**
   * The update made when a deferred parse settles with `v`: `v` is stored
   * under the camel-cased name and the attributes are left alone; a `v`
   * that is itself a thenable is deferred again behind a `null`.
   */
  lemma SettledEntry(st: ElementState, propname: string, v: Value, types: Registry, props: Dict<PropInfo>)
    requires "string" in types && ':' !in propname
    ensures var r := ApplyEntry(st, propname, v, Settled, types, props);
      && r.Some? && r.value.attributes == st.attributes
      && Camelize(propname) in r.value.data && r.value.data[Camelize(propname)] == (if v.Thenable? then Null else v)
      && r.value.pending == st.pending + (if v.Thenable? then [Deferral(v.id, propname)] else [])
  {
    SplitJoin(propname, "");
  }

  /**
   * An untyped string entry whose type parses as `types.string` does and
   * has a `stringify` ends with `$data` and the attribute agreeing: the
   * property holds the text the attribute holds.
   */
  lemma StringEntryAgrees(st: ElementState, name: string, s: string, o: Options, types: Registry, props: Dict<PropInfo>)
    requires "string" in types && ':' !in name && AttrOn(o) && !o.noparse
    requires forall v, n, d :: types[EntryTypeKey(types, props, name)].parse(v, n, d) == Returned(Str(v))
    ensures var r := ApplyEntry(st, name, Str(s), o, types, props);
      && r.Some? && Camelize(name) in r.value.data && r.value.data[Camelize(name)] == Str(s)
      && name in r.value.attributes.vals && r.value.attributes.vals[name] == s
  {
    SplitJoin(name, "");
  }

  // ---------------------------------------------------------------------------
  // Runs of entries

  /** Once a parse has thrown, the later entries are not looked at. */
  lemma {:induction false} ApplyAllStops(st: ElementState, entries: seq<(string, Value)>, i: nat, o: Options, types: Registry, props: Dict<PropInfo>)
    requires "string" in types && i <= |entries|
    requires !ApplyAll(st, entries[..i], o, types, props).ok
    decreases |entries| - i
    ensures ApplyAll(st, entries, o, types, props) == ApplyAll(st, entries[..i], o, types, props)
  {
    if i < |entries| {
      assert entries[..i + 1][..i] == entries[..i];
      ApplyAllStops(st, entries, i + 1, o, types, props);
    } else {
      assert entries[..i] == entries;
    }
  }

  /** With `attr: false` no attribute is written, however many entries there are. */
  lemma {:induction false} QuietKeepsAttributes(st: ElementState, entries: seq<(string, Value)>, o: Options, types: Registry, props: Dict<PropInfo>)
    requires "string" in types && !AttrOn(o)
    decreases |entries|
    ensures ApplyAll(st, entries, o, types, props).state.attributes == st.attributes
  {
    if entries != [] {
      QuietKeepsAttributes(st, entries[..|entries| - 1], o, types, props);
    }
  }

  /** The camel-cased names an update can store under. */
  function Targets(entries: seq<(string, Value)>): set<string>
  {
    set i | 0 <= i < |entries| :: Camelize(SplitName(entries[i].0).0)
  }

  /**
   * An update only touches the `$data` keys of its own entries, and only
   * adds deferrals: the ones already outstanding stay, in order.
   */
  lemma {:induction false} ApplyAllFrame(st: ElementState, entries: seq<(string, Value)>, o: Options, types: Registry, props: Dict<PropInfo>)
    requires "string" in types
    decreases |entries|
    ensures var r := ApplyAll(st, entries, o, types, props).state;
      && r.data.Keys <= st.data.Keys + Targets(entries)
      && (forall n :: n in st.data && n !in Targets(entries) ==> n in r.data && r.data[n] == st.data[n])
      && |st.pending| <= |r.pending| && r.pending[..|st.pending|] == st.pending
  {
    if entries != [] {
      var init := entries[..|entries| - 1];
      ApplyAllFrame(st, init, o, types, props);
      assert Targets(init) <= Targets(entries) by {
        forall n | n in Targets(init) ensures n in Targets(entries) {
          var i :| 0 <= i < |init| && n == Camelize(SplitName(init[i].0).0);
          assert init[i] == entries[i];
        }
      }
      var e := entries[|entries| - 1];
      assert Camelize(SplitName(e.0).0) in Targets(entries);
      var before := ApplyAll(st, init, o, types, props);
      if before.ok {
        EntryRules(before.state, e.0, e.1, o, types, props);
      }
    }
  }

  /**
   * An update writes back only its own entries' attributes: an attribute
   * that no entry's property name names keeps its presence and its text.
   */
  lemma {:induction false} ApplyAllAttributeFrame(st: ElementState, entries: seq<(string, Value)>, n: string,
                                                  o: Options, types: Registry, props: Dict<PropInfo>)
    requires "string" in types
    requires forall i :: 0 <= i < |entries| ==> SplitName(entries[i].0).0 != n
    decreases |entries|
    ensures var r := ApplyAll(st, entries, o, types, props).state.attributes.vals;
      && (n in r <==> n in st.attributes.vals)
      && (n in r ==> r[n] == st.attributes.vals[n])
  {
    if entries != [] {
      var init := entries[..|entries| - 1];
      assert forall i :: 0 <= i < |init| ==> init[i] == entries[i];
      ApplyAllAttributeFrame(st, init, n, o, types, props);
    }
  }

  /** An update of one entry is that entry's rule. */
  lemma ApplyAllOne(st: ElementState, key: string, value: Value, o: Options, types: Registry, props: Dict<PropInfo>)
    requires "string" in types
    ensures var r := ApplyEntry(st, key, value, o, types, props);
      ApplyAll(st, [(key, value)], o, types, props) == (if r.Some? then Applied(r.value, true) else Applied(st, false))
  {
    assert [(key, value)][..0] == [];
  }

  // ---------------------------------------------------------------------------
  // The property merge of `connectedCallback`

  /** A dictionary's value for `k`, or `undefined`. */
  function Lookup<V>(d: Dict<V>, k: string, absent: V): V
  {
    if k in d.vals then d.vals[k] else absent
  }

  /** `Object.entries($properties)` as update entries: each property with its default value. */
  function Defaults(props: Dict<PropInfo>): (r: seq<(string, Value)>)
  {
    DefaultsOf(props, props.keys)
  }

  function DefaultsOf(props: Dict<PropInfo>, keys: seq<string>): (r: seq<(string, Value)>)
  {
    if keys == [] then [] else [(keys[0], Lookup(props, keys[0], PropInfo("", Undefined)).value)] + DefaultsOf(props, keys[1..])
  }

  /** The element's attributes as (name, value) pairs, in order. */
  function Pairs(d: Dict<string>): (r: seq<(string, string)>)
  {
    PairsOf(d, d.keys)
  }

  function PairsOf(d: Dict<string>, keys: seq<string>): (r: seq<(string, string)>)
  {
    if keys == [] then [] else [(keys[0], Lookup(d, keys[0], ""))] + PairsOf(d, keys[1..])
  }

  /** Where the attribute pass of `connectedCallback` has got to: the state, `$properties`, and whether a typed attribute was seen. */
  datatype Merge = Merge(state: ElementState, ok: bool, props: Dict<PropInfo>, typed: bool)

  /**
   * The attribute pass over `attrs`: a `name:type` attribute sets the
   * property `name` to that type and value; then, when `name` is a
   * property, it is updated quietly with the attribute's text (unless
   * updates are being dropped). It stops when a parse throws.
   */
  function MergeAttributes(m: Merge, attrs: seq<(string, string)>, types: Registry, dropped: bool): Merge
    requires "string" in types
    decreases |attrs|
  {
    if attrs == [] then m
    else
      var before := MergeAttributes(m, attrs[..|attrs| - 1], types, dropped);
      if !before.ok then before
      else MergeOne(before, attrs[|attrs| - 1], types, dropped)
  }

  /** One attribute of the attribute pass, from a state where nothing has thrown. */
  function MergeOne(m: Merge, attr: (string, string), types: Registry, dropped: bool): Merge
    requires "string" in types
  {
    var (name, typ) := SplitName(attr.0);
    var props := if typ != "" then m.props.Put(name, PropInfo(typ, Str(attr.1))) else m.props;
    if name in props.vals && !dropped then
      var a := ApplyAll(m.state, [(name, Str(attr.1))], Quiet, types, props);
      Merge(a.state, a.ok, props, m.typed || typ != "")
    else Merge(m.state, true, props, m.typed || typ != "")
  }

  /** The accessor pass: each property's camel-cased name, unless the element already has it. */
  function AddAccessors(acc: seq<string>, names: seq<string>, host: set<string>): seq<string>
    decreases |names|
  {
    if names == [] then acc
    else
      var before := AddAccessors(acc, names[..|names| - 1], host);
      var p := Camelize(names[|names| - 1]);
      if p in host || p in before then before else before + [p]
  }

  /**
   * Accessors never shadow what the element already has and are defined
   * once each; afterwards every property is reachable under its
   * camel-cased name, through an accessor or the element's own member.
   */
  lemma {:induction false} AccessorsSound(acc: seq<string>, names: seq<string>, host: set<string>)
    requires forall i, j :: 0 <= i < j < |acc| ==> acc[i] != acc[j]
    requires forall i :: 0 <= i < |acc| ==> acc[i] !in host
    decreases |names|
    ensures var r := AddAccessors(acc, names, host);
      && |acc| <= |r| && r[..|acc|] == acc
      && (forall i, j :: 0 <= i < j < |r| ==> r[i] != r[j])
      && (forall i :: 0 <= i < |r| ==> r[i] !in host)
      && (forall i :: 0 <= i < |names| ==> Camelize(names[i]) in host || Camelize(names[i]) in r)
  {
    if names != [] {
      var init := names[..|names| - 1];
      AccessorsSound(acc, init, host);
      var before := AddAccessors(acc, init, host);
      var r := AddAccessors(acc, names, host);
      assert forall i :: 0 <= i < |init| ==> names[i] == init[i];
      assert forall x :: x in before ==> x in r;
    }
  }

  /** The attribute pass only adds properties, at the end, and keeps `$properties` well formed. */
  lemma {:induction false} MergeGrows(m: Merge, attrs: seq<(string, string)>, types: Registry, dropped: bool)
    requires "string" in types && m.props.Valid()
    decreases |attrs|
    ensures var r := MergeAttributes(m, attrs, types, dropped);
      && r.props.Valid() && |m.props.keys| <= |r.props.keys| && r.props.keys[..|m.props.keys|] == m.props.keys
      && (m.typed ==> r.typed)
  {
    if attrs != [] {
      MergeGrows(m, attrs[..|attrs| - 1], types, dropped);
    }
  }

  /** A typed attribute declares its property: afterwards the property exists, whatever came before. */
  lemma {:induction false} MergeDeclares(m: Merge, attrs: seq<(string, string)>, types: Registry, dropped: bool)
    requires "string" in types && m.props.Valid()
    decreases |attrs|
    ensures var r := MergeAttributes(m, attrs, types, dropped);
      forall i :: 0 <= i < |attrs| && r.ok && SplitName(attrs[i].0).1 != "" ==> SplitName(attrs[i].0).0 in r.props.vals && r.typed
  {
    if attrs != [] {
      var init := attrs[..|attrs| - 1];
      MergeDeclares(m, init, types, dropped);
      MergeGrows(m, init, types, dropped);
      var before := MergeAttributes(m, init, types, dropped);
      var r := MergeAttributes(m, attrs, types, dropped);
      if before.ok {
        assert r == MergeOne(before, attrs[|attrs| - 1], types, dropped);
        assert forall i :: 0 <= i < |init| ==> attrs[i] == init[i];
        assert forall k :: k in before.props.vals ==> k in r.props.vals;
      }
    }
  }

  /**
   * A `name:type` attribute met after everything before it went through
   * makes `type` the property's type and the attribute text its value, and
   * that text is parsed with `type` (when it is registered): a parse that
   * throws ends the pass, and a value it returns is stored in `$data`
   * (`null` while it is deferred). With updates dropped nothing is stored.
   */
  lemma TypedAttributeOverrides(m: Merge, attrs: seq<(string, string)>, name: string, typ: string, v: string,
                                types: Registry, dropped: bool)
    requires "string" in types && ':' !in name && ':' !in typ && typ != ""
    requires MergeAttributes(m, attrs, types, dropped).ok
    ensures var before := MergeAttributes(m, attrs, types, dropped);
      var r := MergeAttributes(m, attrs + [(name + ":" + typ, v)], types, dropped);
      && name in r.props.vals && r.props.vals[name] == PropInfo(typ, Str(v)) && r.typed
      && (!dropped && typ in types ==>
            var p := types[typ].parse(v, name, before.state.data);
            && r.ok == p.Returned?
            && (p.Returned? ==>
                  Camelize(name) in r.state.data && r.state.data[Camelize(name)] == (if p.v.Thenable? then Null else p.v)))
      && (dropped ==> r.ok && r.state == before.state)
  {
    SplitJoin(name, typ);
    var all := attrs + [(name + ":" + typ, v)];
    assert all[..|all| - 1] == attrs;
    SplitJoin(name, "");
    var before := MergeAttributes(m, attrs, types, dropped);
    var props := before.props.Put(name, PropInfo(typ, Str(v)));
    assert DeclaredType(props, name) == typ;
    ApplyAllOne(before.state, name, Str(v), Quiet, types, props);
  }

  /**
   * Instance attributes win over template defaults: an untyped attribute
   * for a property, met last, is parsed with the property's type, and what
   * the parse returns is what the property holds (`null` while it is
   * deferred); a parse that throws ends the pass.
   */
  lemma AttributeOverridesDefault(m: Merge, attrs: seq<(string, string)>, name: string, v: string, types: Registry)
    requires "string" in types && ':' !in name
    requires var before := MergeAttributes(m, attrs, types, false);
      before.ok && name in before.props.vals
    ensures var before := MergeAttributes(m, attrs, types, false);
      var p := types[TypeKey(types, "", before.props.vals[name].typ)].parse(v, name, before.state.data);
      var r := MergeAttributes(m, attrs + [(name, v)], types, false);
      && r.ok == p.Returned?
      && (p.Returned? ==>
            Camelize(name) in r.state.data && r.state.data[Camelize(name)] == (if p.v.Thenable? then Null else p.v))
  {
    SplitJoin(name, "");
    var all := attrs + [(name, v)];
    assert all[..|all| - 1] == attrs;
    var before := MergeAttributes(m, attrs, types, false);
    ApplyAllOne(before.state, name, Str(v), Quiet, types, before.props);
  }

  /** The attribute pass over `xs + ys` is the pass over `ys` from where the pass over `xs` got to. */
  lemma {:induction false} MergeAttributesAppend(m: Merge, xs: seq<(string, string)>, ys: seq<(string, string)>, types: Registry, dropped: bool)
    requires "string" in types
    decreases |ys|
    ensures MergeAttributes(m, xs + ys, types, dropped) == MergeAttributes(MergeAttributes(m, xs, types, dropped), ys, types, dropped)
  {
    if ys == [] {
      assert xs + ys == xs;
    } else {
      var init := ys[..|ys| - 1];
      assert (xs + ys)[..|xs + ys| - 1] == xs + init;
      MergeAttributesAppend(m, xs, init, types, dropped);
    }
  }

  /**
   * Attributes whose properties have other camel-cased names than `k`
   * leave `$data[k]` as it was: present or absent, with the same value.
   */
  lemma {:induction false} MergeAttributesFrame(m: Merge, attrs: seq<(string, string)>, k: string, types: Registry, dropped: bool)
    requires "string" in types
    requires forall i :: 0 <= i < |attrs| ==> Camelize(SplitName(attrs[i].0).0) != k
    decreases |attrs|
    ensures var r := MergeAttributes(m, attrs, types, dropped).state.data;
      && (k in r <==> k in m.state.data)
      && (k in r ==> r[k] == m.state.data[k])
  {
    if attrs != [] {
      var init := attrs[..|attrs| - 1];
      assert forall i :: 0 <= i < |init| ==> init[i] == attrs[i];
      MergeAttributesFrame(m, init, k, types, dropped);
      var before := MergeAttributes(m, init, types, dropped);
      if before.ok {
        var a := attrs[|attrs| - 1];
        var (name, typ) := SplitName(a.0);
        SplitJoin(name, "");
        var props := if typ != "" then before.props.Put(name, PropInfo(typ, Str(a.1))) else before.props;
        ApplyAllFrame(before.state, [(name, Str(a.1))], Quiet, types, props);
        assert Targets([(name, Str(a.1))]) == {Camelize(name)};
      }
    }
  }

  /**
   * An untyped attribute for a property decides what the property holds
   * whatever comes after it, as long as no later attribute names a
   * property with the same camel-cased name: what its parse returns stays
   * in `$data` (`null` while it is deferred), and a parse that throws
   * ends the pass.
   */
  lemma AttributeOverridesDefaultAnywhere(m: Merge, attrs: seq<(string, string)>, name: string, v: string,
                                          rest: seq<(string, string)>, types: Registry)
    requires "string" in types && ':' !in name
    requires var before := MergeAttributes(m, attrs, types, false);
      before.ok && name in before.props.vals
    requires forall i :: 0 <= i < |rest| ==> Camelize(SplitName(rest[i].0).0) != Camelize(name)
    ensures var before := MergeAttributes(m, attrs, types, false);
      var p := types[TypeKey(types, "", before.props.vals[name].typ)].parse(v, name, before.state.data);
      var r := MergeAttributes(m, attrs + [(name, v)] + rest, types, false);
      && (!p.Returned? ==> !r.ok)
      && (p.Returned? ==>
            Camelize(name) in r.state.data && r.state.data[Camelize(name)] == (if p.v.Thenable? then Null else p.v))
  {
    AttributeOverridesDefault(m, attrs, name, v, types);
    var mid := MergeAttributes(m, attrs + [(name, v)], types, false);
    MergeAttributesAppend(m, attrs + [(name, v)], rest, types, false);
    if mid.ok {
      MergeAttributesFrame(mid, rest, Camelize(name), types, false);
    } else {
      MergeAttributesStops(mid, rest, 0, types, false);
      assert rest[..0] == [];
    }
  }

  /** `connectedCallback`'s first pass: each property's default, applied quietly, unless updates are being dropped. */
  function DefaultsPass(st: ElementState, props: Dict<PropInfo>, dropped: bool, types: Registry): Applied
    requires "string" in types
  {
    if dropped then Applied(st, true) else ApplyAll(st, Defaults(props), Quiet, types, props)
  }

  /** What `connectedCallback` leaves: the state, `$properties`, whether it ran to the end, the accessors, and the observation flag. */
  datatype Connection = Connection(state: ElementState, props: Dict<PropInfo>, ok: bool, accessors: seq<string>, observeAll: bool)

  /**
   * The three passes of `connectedCallback` over the state `st`, properties
   * `props` and instance attributes `attrs`; `dropped` when an update is in
   * progress, so that the updates are dropped.
   */
  function Connect(st: ElementState, props: Dict<PropInfo>, attrs: seq<(string, string)>, acc: seq<string>, observeAll: bool,
                   dropped: bool, types: Registry, host: set<string>): Connection
    requires "string" in types
  {
    var defaults := DefaultsPass(st, props, dropped, types);
    if !defaults.ok then Connection(defaults.state, props, false, acc, observeAll)
    else
      var m := MergeAttributes(Merge(defaults.state, true, props, false), attrs, types, dropped);
      if !m.ok then Connection(m.state, m.props, false, acc, observeAll)
      else Connection(m.state, m.props, true, AddAccessors(acc, m.props.keys, host), observeAll || m.typed)
  }

  /** Once a parse has thrown, the later attributes are not looked at. */
  lemma {:induction false} MergeAttributesStops(m: Merge, attrs: seq<(string, string)>, i: nat, types: Registry, dropped: bool)
    requires "string" in types && i <= |attrs|
    requires !MergeAttributes(m, attrs[..i], types, dropped).ok
    decreases |attrs| - i
    ensures MergeAttributes(m, attrs, types, dropped) == MergeAttributes(m, attrs[..i], types, dropped)
  {
    if i < |attrs| {
      assert attrs[..i + 1][..i] == attrs[..i];
      MergeAttributesStops(m, attrs, i + 1, types, dropped);
    } else {
      assert attrs[..i] == attrs;
    }
  }

  // ---------------------------------------------------------------------------
  // The element

  /** One instance of a component's element class. */
  class UIElement {
    /** `$updating`: an `update` is in progress. */
    var updating: bool
    /** `$contents` is set: the element has been connected. */
    var connected: bool
    /** `$data`. */
    var data: map<string, Value>
    /** The element's attributes, in document order. */
    var attributes: Dict<string>
    /** Deferred parses whose follow-up update has not run yet. */
    var pending: seq<Deferral>
    /** `$properties`. */
    var properties: Dict<PropInfo>
    /** How many times the element has been rendered. */
    var renders: nat
    /** The accessors defined on the element, in order. */
    var accessors: seq<string>
    /** Whether the element is observed for changes of any attribute (it has a typed one). */
    var observeAll: bool

    /** The component's extraction state, which says whether its scripts have loaded. */
    const component: Loader
    /** `observedAttributes`: the keys of the component's `properties`. */
    const observed: seq<string>
    /** The names `property in this` already finds: the `HTMLElement` prototype chain and the class's own members. */
    const hostProps: set<string>

    ghost predicate Valid()
      reads this
    {
      properties.Valid() && attributes.Valid()
    }

    function Current(): ElementState
      reads this
    {
      ElementState(data, attributes, pending)
    }

    /** Everything but `Current()` is as it was. */
    twostate predicate Steady()
      reads this
    {
      && updating == old(updating) && connected == old(connected) && properties == old(properties)
      && renders == old(renders) && accessors == old(accessors) && observeAll == old(observeAll)
    }

    /** The constructor: `$properties` is a copy of the component's properties and `$data` is empty. */
    constructor(component: Loader, props: Dict<PropInfo>, attributes: Dict<string>, hostProps: set<string>)
      requires props.Valid() && attributes.Valid()
      ensures Valid()
      ensures this.component == component && observed == props.keys && this.hostProps == hostProps
      ensures properties == props && this.attributes == attributes && data == map[] && pending == []
      ensures !updating && !connected && renders == 0 && accessors == [] && !observeAll
    {
      this.component, observed, this.hostProps := component, props.keys, hostProps;
      properties, this.attributes, data, pending := props, attributes, map[], [];
      updating, connected, renders, accessors, observeAll := false, false, 0, [], false;
    }

    /**
     * `update(props, options)`. A call made while another is in progress is
     * dropped, and so is one before the element is connected. Otherwise the
     * entries are applied in order until a parse throws (`ok` false); the
     * element is rendered when all went through, `render` is on and the
     * component's scripts have loaded; and `$updating` is false again.
     */
    method Update(entries: seq<(string, Value)>, o: Options, types: Registry) returns (ok: bool)
      requires "string" in types && Valid()
      modifies this
      decreases if updating then 0 else 5
      ensures Valid()
      ensures old(updating) || !old(connected) ==> unchanged(this) && ok
      ensures !old(updating) && old(connected) ==>
        var a := ApplyAll(old(Current()), entries, o, types, properties);
        && Current() == a.state && ok == a.ok && !updating
        && renders == old(renders) + (if ok && RenderOn(o) && component.scriptsLoaded then 1 else 0)
      ensures connected == old(connected) && properties == old(properties)
      ensures accessors == old(accessors) && observeAll == old(observeAll)
    {
      ok := true;
      if !updating && connected {
        updating := true;
        ok := ApplyEntries(entries, o, types);
        if ok && RenderOn(o) && component.scriptsLoaded {
          renders := renders + 1;
        }
        updating := false;
      }
    }

    /** The loop of `update`: the entries in order, until a parse throws. */
    method ApplyEntries(entries: seq<(string, Value)>, o: Options, types: Registry) returns (ok: bool)
      requires "string" in types && Valid() && updating && connected
      modifies this
      decreases 4
      ensures Valid() && Steady()
      ensures Applied(Current(), ok) == ApplyAll(old(Current()), entries, o, types, properties)
    {
      ghost var start := Current();
      var i := 0;
      ok := true;
      while i < |entries| && ok
        invariant i <= |entries| && Valid() && Steady()
        invariant ApplyAll(start, entries[..i], o, types, properties) == Applied(Current(), ok)
        decreases |entries| - i
      {
        assert entries[..i + 1][..i] == entries[..i];
        ok := ApplyOne(entries[i].0, entries[i].1, o, types);
        i := i + 1;
      }
      if !ok {
        ApplyAllStops(start, entries, i, o, types, properties);
      } else {
        assert entries[..i] == entries;
      }
    }

    /** The body of `update`'s loop for one entry `key: value`. */
    method ApplyOne(key: string, value: Value, o: Options, types: Registry) returns (ok: bool)
      requires "string" in types && Valid() && updating && connected
      modifies this
      decreases 3
      ensures Valid() && Steady()
      ensures var r := ApplyEntry(old(Current()), key, value, o, types, properties);
        ok == r.Some? && Current() == (if ok then r.value else old(Current()))
    {
      var (propname, _) := SplitName(key);
      var t := types[EntryTypeKey(types, properties, key)];
      var outcome := Outcome(t, value, propname, data, o.noparse);
      if outcome.Threw? {
        return false;
      }
      var result := outcome.v;
      if result.Thenable? {
        // settles later: a follow-up update with the result; `null` for now
        pending := pending + [Deferral(result.id, propname)];
        result := Null;
      }
      data := data[Camelize(propname) := result];
      if AttrOn(o) && (value.Str? || t.stringify.Some?) {
        var text := if value.Str? then value.s else t.stringify.value(value, propname, data);
        SetAttribute(propname, text, types);
      }
      return true;
    }

    /**
     * `setAttribute(name, text)` while an update is in progress: the
     * attribute is written, and for an observed attribute the browser calls
     * `attributeChangedCallback`, whose update is dropped.
     */
    method SetAttribute(name: string, text: string, types: Registry)
      requires "string" in types && Valid() && updating
      modifies this
      decreases 2
      ensures Valid() && Steady()
      ensures attributes == old(attributes).Put(name, text) && data == old(data) && pending == old(pending)
    {
      attributes := attributes.Put(name, text);
      if name in observed {
        AttributeChanged(name, Str(text), types);
      }
    }

    /** `attributeChangedCallback(name, oldValue, value)`: an update with `{attr: false, render: true}`. */
    method AttributeChanged(name: string, value: Value, types: Registry)
      requires "string" in types && Valid()
      modifies this
      decreases if updating then 1 else 6
      ensures Valid()
      ensures old(updating) || !old(connected) ==> unchanged(this)
      ensures !old(updating) && old(connected) ==>
        var a := ApplyAll(old(Current()), [(name, value)], Reflect, types, properties);
        && Current() == a.state && !updating
        && renders == old(renders) + (if a.ok && component.scriptsLoaded then 1 else 0)
      ensures connected == old(connected) && properties == old(properties)
      ensures accessors == old(accessors) && observeAll == old(observeAll)
    {
      var _ := Update([(name, value)], Reflect, types);
    }

    /**
     * The deferred parse `pending[k]` settles with `v`: its property is
     * updated with `{render: true, noparse: true, attr: false}`.
     */
    method Resolve(k: nat, v: Value, types: Registry)
      requires "string" in types && Valid() && k < |pending|
      modifies this
      ensures Valid()
      ensures var d := old(pending)[k];
        var rest := ElementState(old(data), old(attributes), old(pending)[..k] + old(pending)[k + 1..]);
        && (old(updating) || !old(connected) ==>
              Current() == rest && renders == old(renders) && updating == old(updating))
        && (!old(updating) && old(connected) ==>
              var a := ApplyAll(rest, [(d.propname, v)], Settled, types, properties);
              && Current() == a.state && !updating
              && renders == old(renders) + (if a.ok && component.scriptsLoaded then 1 else 0))
      ensures connected == old(connected) && properties == old(properties)
      ensures accessors == old(accessors) && observeAll == old(observeAll)
    {
      var d := pending[k];
      pending := pending[..k] + pending[k + 1..];
      var _ := Update([(d.propname, v)], Settled, types);
    }

    /**
     * The property merge of `connectedCallback`: the element is marked
     * connected; each property's default is applied quietly; then the
     * instance attributes are merged in order; then accessors are defined;
     * and the element is observed for all attribute changes if it has a
     * typed attribute. A throwing parse (`ok` false) ends the callback there.
     */
    method ConnectedCallback(types: Registry) returns (ok: bool)
      requires "string" in types && Valid()
      modifies this
      ensures Valid() && connected && updating == old(updating) && renders == old(renders)
      ensures Connection(Current(), properties, ok, accessors, observeAll)
           == Connect(old(Current()), old(properties), Pairs(old(attributes)), old(accessors), old(observeAll), old(updating), types, hostProps)
    {
      ghost var spec := Connect(Current(), properties, Pairs(attributes), accessors, observeAll, updating, types, hostProps);
      ghost var props0, attrs0 := properties, Pairs(attributes);
      connected := true;
      ok := ApplyDefaults(types);
      if ok {
        ghost var defaulted := Current();
        var typed;
        ok, typed := MergeInstanceAttributes(types);
        assert MergeAttributes(Merge(defaulted, true, props0, false), attrs0, types, updating) == Merge(Current(), ok, properties, typed);
        if ok {
          DefineAccessors();
          if typed {
            observeAll := true;
          }
        }
      }
    }

    /** `connectedCallback`'s first pass: `update({[name]: info.value}, {attr: false, render: false})` for each property. */
    method ApplyDefaults(types: Registry) returns (ok: bool)
      requires "string" in types && Valid() && connected
      modifies this
      ensures Valid() && Steady() && attributes == old(attributes)
      ensures Applied(Current(), ok) == DefaultsPass(old(Current()), properties, updating, types)
    {
      ghost var start := Current();
      var entries := Defaults(properties);
      var i := 0;
      ok := true;
      while i < |entries| && ok
        invariant i <= |entries| && Valid() && Steady()
        invariant updating ==> Current() == start && ok
        invariant !updating ==> ApplyAll(start, entries[..i], Quiet, types, properties) == Applied(Current(), ok)
        decreases |entries| - i
      {
        ok := ApplyDefault(start, entries, i, types);
        i := i + 1;
      }
      if !updating {
        if !ok {
          ApplyAllStops(start, entries, i, Quiet, types, properties);
        } else {
          assert entries[..i] == entries;
        }
        QuietKeepsAttributes(start, entries, Quiet, types, properties);
      }
    }

    /** The body of the defaults loop: `this.update({[propName]: propInfo.value}, {attr: false, render: false})`. */
    method ApplyDefault(ghost start: ElementState, entries: seq<(string, Value)>, i: nat, types: Registry) returns (ok: bool)
      requires "string" in types && Valid() && connected && i < |entries|
      requires updating ==> Current() == start
      requires !updating ==> ApplyAll(start, entries[..i], Quiet, types, properties) == Applied(Current(), true)
      modifies this
      ensures Valid() && Steady()
      ensures updating ==> Current() == start && ok
      ensures !updating ==> ApplyAll(start, entries[..i + 1], Quiet, types, properties) == Applied(Current(), ok)
    {
      assert entries[..i + 1][..i] == entries[..i];
      ghost var before := Current();
      ok := Update([entries[i]], Quiet, types);
      if !updating {
        ApplyAllOne(before, entries[i].0, entries[i].1, Quiet, types, properties);
      }
    }

    /** `connectedCallback`'s second pass, over the instance attributes; `typed` says whether one had a `:type`. */
    method MergeInstanceAttributes(types: Registry) returns (ok: bool, typed: bool)
      requires "string" in types && Valid() && connected
      modifies this
      ensures Valid() && connected && updating == old(updating) && renders == old(renders)
      ensures accessors == old(accessors) && observeAll == old(observeAll)
      ensures MergeAttributes(Merge(old(Current()), true, old(properties), false), Pairs(old(attributes)), types, updating)
              == Merge(Current(), ok, properties, typed)
    {
      ghost var start := Merge(Current(), true, properties, false);
      var attrs := Pairs(attributes);
      var j := 0;
      ok, typed := true, false;
      while j < |attrs| && ok
        invariant j <= |attrs| && Valid() && connected && updating == old(updating) && renders == old(renders)
        invariant accessors == old(accessors) && observeAll == old(observeAll)
        invariant MergeAttributes(start, attrs[..j], types, updating) == Merge(Current(), ok, properties, typed)
        decreases |attrs| - j
      {
        assert attrs[..j + 1][..j] == attrs[..j];
        ok, typed := MergeAttribute(attrs[j], typed, types);
        j := j + 1;
      }
      if !ok {
        MergeAttributesStops(start, attrs, j, types, updating);
      } else {
        assert attrs[..j] == attrs;
      }
    }

    /** One attribute of the second pass: a typed one declares its property; a property is updated quietly. */
    method MergeAttribute(attr: (string, string), typed: bool, types: Registry) returns (ok: bool, typed': bool)
      requires "string" in types && Valid() && connected
      modifies this
      ensures Valid() && connected && updating == old(updating) && renders == old(renders)
      ensures accessors == old(accessors) && observeAll == old(observeAll)
      ensures MergeOne(Merge(old(Current()), true, old(properties), typed), attr, types, updating) == Merge(Current(), ok, properties, typed')
    {
      var (name, typ) := SplitName(attr.0);
      typed' := typed;
      if typ != "" {
        properties := properties.Put(name, PropInfo(typ, Str(attr.1)));
        typed' := true;
      }
      ok := true;
      if name in properties.vals {
        ghost var cur := Current();
        ok := Update([(name, Str(attr.1))], Quiet, types);
        if !updating {
          ApplyAllOne(cur, name, Str(attr.1), Quiet, types, properties);
        }
      }
    }

    /** `connectedCallback`'s third pass: an accessor for each property whose camel-cased name `this` does not have yet. */
    method DefineAccessors()
      modifies this
      ensures accessors == AddAccessors(old(accessors), properties.keys, hostProps)
      ensures Current() == old(Current()) && updating == old(updating) && connected == old(connected)
      ensures properties == old(properties) && renders == old(renders) && observeAll == old(observeAll)
    {
      var names := properties.keys;
      var k := 0;
      while k < |names|
        invariant k <= |names| && accessors == AddAccessors(old(accessors), names[..k], hostProps)
        invariant Current() == old(Current()) && updating == old(updating) && connected == old(connected)
        invariant properties == old(properties) && renders == old(renders) && observeAll == old(observeAll)
      {
        assert names[..k + 1][..k] == names[..k];
        var property := Camelize(names[k]);
        if property !in hostProps && property !in accessors {
          accessors := accessors + [property];
        }
        k := k + 1;
      }
      assert names[..k] == names;
    }
  }
}

=== FILE: escape.dfy ===
/**
 * The HTML escaper and unescaper of uifactory (ports of lodash's `_.escape`
 * and `_.unescape`). `escape` turns exactly `& < > " '` into entities;
 * `unescape` turns the five entities back, reading `&#39;` with any number
 * of leading zeros as an apostrophe.
 */
module HtmlEscape {
  import opened Common

  /** The characters matched by `/[&<>"']/`. */
  predicate IsHtmlSpecial(c: char)
  {
    c == '&' || c == '<' || c == '>' || c == '"' || c == '\''
  }

  /** The `htmlEscapes` table. */
  function EntityOf(c: char): (e: string)
    requires IsHtmlSpecial(c)
    ensures |e| >= 4 && e[0] == '&' && e[|e| - 1] == ';'
  {
    if c == '&' then "&amp;"
    else if c == '<' then "&lt;"
    else if c == '>' then "&gt;"
    else if c == '"' then "&quot;"
    else "&#39;"
  }

  predicate HasHtmlSpecial(s: string)
  {
    exists i :: 0 <= i < |s| && IsHtmlSpecial(s[i])
  }

  /** No character of `s` can open a tag or close an attribute value. */
  predicate MarkupFree(s: string)
  {
    forall i :: 0 <= i < |s| ==> s[i] != '<' && s[i] != '>' && s[i] != '"' && s[i] != '\''
  }

  /** The global `replace(reUnescapedHtml, ...)`: every special character becomes its entity. */
  function EscapeChars(s: string): (r: string)
    ensures MarkupFree(r)
    ensures !HasHtmlSpecial(s) ==> r == s
  {
    if s == [] then []
    else
      var head := if IsHtmlSpecial(s[0]) then EntityOf(s[0]) else [s[0]];
      assert !HasHtmlSpecial(s) ==> !HasHtmlSpecial(s[1..]) by {
        if HasHtmlSpecial(s[1..]) {
          var i :| 0 <= i < |s[1..]| && IsHtmlSpecial(s[1..][i]);
          assert IsHtmlSpecial(s[i + 1]);
        }
      }
      head + EscapeChars(s[1..])
  }

  /** `escape(string)`; `None` stands for a missing or null argument. */
  function Escape(s: Option<string>): (r: string)
    ensures MarkupFree(r)
    ensures s.Some? && !HasHtmlSpecial(s.value) ==> r == s.value
    ensures s.None? ==> r == ""
  {
    match s
    case None => ""
    case Some(t) => if t != "" && HasHtmlSpecial(t) then EscapeChars(t) else t
  }

  /** Number of leading '0' characters of `s` (the `(0+)?` group). */
  function LeadingZeros(s: string): (n: nat)
    ensures n <= |s|
    ensures forall i :: 0 <= i < n ==> s[i] == '0'
    ensures n < |s| ==> s[n] != '0'
  {
    if s != [] && s[0] == '0' then 1 + LeadingZeros(s[1..]) else 0
  }

  /**
   * The match of `/&(?:amp|lt|gt|quot|#(0+)?39);/` at the start of `s`:
   * the character it stands for and the length of the entity.
   */
  function MatchEntity(s: string): (r: Option<(char, nat)>)
    ensures r.Some? ==> 4 <= r.value.1 <= |s| && s[0] == '&'
  {
    if StartsAt(s, 0, "&amp;") then Some(('&', 5))
    else if StartsAt(s, 0, "&lt;") then Some(('<', 4))
    else if StartsAt(s, 0, "&gt;") then Some(('>', 4))
    else if StartsAt(s, 0, "&quot;") then Some(('"', 6))
    else if StartsAt(s, 0, "&#") && StartsAt(s, 2 + LeadingZeros(s[2..]), "39;") then
      Some(('\'', 5 + LeadingZeros(s[2..])))
    else None
  }

  predicate HasEntity(s: string)
  {
    exists i :: 0 <= i < |s| && MatchEntity(s[i..]).Some?
  }

  /** The global `replace(reEscapedHtml, ...)`, scanning left to right. */
  function UnescapeChars(s: string): (r: string)
    ensures |r| <= |s|
  {
    if s == [] then []
    else match MatchEntity(s)
      case Some(m) => [m.0] + UnescapeChars(s[m.1..])
      case None => [s[0]] + UnescapeChars(s[1..])
  }

  /** `unescape(string)`; `None` stands for a missing or null argument. */
  function Unescape(s: Option<string>): (r: string)
    ensures s.None? ==> r == ""
    ensures s.Some? ==> |r| <= |s.value|
  {
    match s
    case None => ""
    case Some(t) => if t != "" && HasEntity(t) then UnescapeChars(t) else t
  }

  // ---------------------------------------------------------------------------
  // Properties

  /** Without an entity the global replace changes nothing, so the guard is only a shortcut. */
  lemma {:induction false} UnescapeCharsNoEntity(s: string)
    requires !HasEntity(s)
    ensures UnescapeChars(s) == s
  {
    if s != [] {
      assert s[0..] == s;
      assert MatchEntity(s[0..]).None?;
      UnescapeCharsNoEntity(s[1..]);
    }
  }

  /** An entity written by `escape` is read back as the character it came from. */
  lemma EntityRoundTrip(c: char, rest: string)
    requires IsHtmlSpecial(c)
    ensures MatchEntity(EntityOf(c) + rest) == Some((c, |EntityOf(c)|))
  {
    var s := EntityOf(c) + rest;
    assert s[..|EntityOf(c)|] == EntityOf(c);
    if c == '\'' {
      assert s[2..][0] == '3';
      assert LeadingZeros(s[2..]) == 0;
      assert s[2..5] == "39;";
    }
  }

  lemma {:induction false} UnescapeEscapeChars(s: string)
    ensures UnescapeChars(EscapeChars(s)) == s
  {
    if s != [] {
      var rest := EscapeChars(s[1..]);
      if IsHtmlSpecial(s[0]) {
        EntityRoundTrip(s[0], rest);
        assert (EntityOf(s[0]) + rest)[|EntityOf(s[0])|..] == rest;
      } else {
        assert ([s[0]] + rest)[1..] == rest;
      }
      UnescapeEscapeChars(s[1..]);
    }
  }

  /** `unescape(escape(s)) == s` for every string. */
  lemma UnescapeEscape(s: string)
    ensures Unescape(Some(Escape(Some(s)))) == s
  {
    UnescapeEscapeChars(s);
    var e := Escape(Some(s));
    if !HasEntity(e) {
      UnescapeCharsNoEntity(e);
    }
    if !(s != "" && HasHtmlSpecial(s)) {
      // escape returned s itself; it has no '&' and hence no entity
      assert !HasEntity(s);
    }
  }

  /** Unescaping is not the inverse the other way round: zero-padded apostrophes are normalised. */
  lemma EscapeUnescapeNotIdentity()
    ensures Escape(Some(Unescape(Some("&#039;")))) == "&#39;"
  {
    var s := "&#039;";
    assert MatchEntity(s) == Some(('\'', 6)) by {
      assert s[2..][0] == '0' && s[2..][1] == '3';
      assert LeadingZeros(s[2..][1..]) == 0;
      assert LeadingZeros(s[2..]) == 1;
      assert s[3..6] == "39;";
    }
    assert s[0..] == s;
    assert HasEntity(s);
    assert UnescapeChars(s[6..]) == [];
    assert UnescapeChars(s) == "'";
    assert HasHtmlSpecial("'") by { assert IsHtmlSpecial("'"[0]); }
    assert EscapeChars("'") == "&#39;" by { assert EscapeChars("'"[1..]) == []; }
  }
}

=== FILE: loader.dfy ===
/**
 * `loadExtract`: copying a component template's stylesheets and scripts into
 * the page, one element at a time, pausing after each external script until
 * it has loaded or failed, and collecting `on*` scripts as lifecycle
 * listeners instead of adding them.
 */
module Loading {
  import opened Common
  import opened Dicts

  /** The part of the page the extracted elements go to. */
  datatype Target = Head | Body

  /** An extracted `<link>`, `<style>` or `<script>`: its attributes in order, its inner HTML, and whether it is a script. */
  datatype Extract = Extract(attrs: seq<(string, string)>, inner: string, isScript: bool)

  /** A lifecycle script: `new Function(attr.value || 'e', ...)` over the element's inner HTML. */
  datatype Listener = Listener(param: string, body: string)

  /** One `appendChild` of a copy of `els[index]` to `target`. */
  datatype Appended = Appended(target: Target, index: nat, element: Extract)

  /** A pending `onload` / `onerror` callback: `loadExtract(target, els, next)`. */
  datatype Resume = Resume(target: Target, els: seq<Extract>, next: nat)

  /** An attribute name such as `onrender` or `onpreconnect`. */
  predicate IsEventAttribute(name: string)
  {
    |name| >= 2 && name[..2] == "on"
  }

  predicate HasEventAttribute(attrs: seq<(string, string)>)
  {
    attrs != [] && (IsEventAttribute(attrs[0].0) || HasEventAttribute(attrs[1..]))
  }

  predicate HasAttribute(attrs: seq<(string, string)>, name: string)
  {
    attrs != [] && (attrs[0].0 == name || HasAttribute(attrs[1..], name))
  }

  /** An element with an `on*` attribute: a lifecycle script. */
  predicate IsListener(e: Extract)
  {
    HasEventAttribute(e.attrs)
  }

  /** `el.hasAttribute('src') && el.matches('script')`. */
  predicate IsExternal(e: Extract)
  {
    e.isScript && HasAttribute(e.attrs, "src")
  }

  /**
   * One call of `loadExtract` from `start`: the indices it appends, in order,
   * and whether it stopped at an external script (the last index appended).
   */
  function Run(els: seq<Extract>, start: nat): (r: (seq<nat>, bool))
    decreases |els| - start
    ensures forall j :: 0 <= j < |r.0| ==> start <= r.0[j] < |els|
    ensures r.1 ==> |r.0| > 0
  {
    if start >= |els| then ([], false)
    else if IsListener(els[start]) then Run(els, start + 1)
    else if IsExternal(els[start]) then ([start], true)
    else
      var r := Run(els, start + 1);
      ([start] + r.0, r.1)
  }

  /** Where a call that starts at `start` stops looking: after the external script, or at the end. */
  function RunEnd(els: seq<Extract>, start: nat): nat
  {
    var r := Run(els, start);
    if r.1 then r.0[|r.0| - 1] + 1 else if start <= |els| then |els| else start
  }

  /** The listeners of one element, one per `on*` attribute, added to the event scripts. */
  function AddListeners(scripts: Dict<seq<Listener>>, attrs: seq<(string, string)>, inner: string): Dict<seq<Listener>>
    decreases |attrs|
  {
    if attrs == [] then scripts
    else
      var name := attrs[0].0;
      var next :=
        if IsEventAttribute(name) then
          var event := name[2..];
          var listeners := if event in scripts.vals then scripts.vals[event] else [];
          scripts.Put(event, listeners + [Listener(if attrs[0].1 == "" then "e" else attrs[0].1, inner)])
        else scripts;
      AddListeners(next, attrs[1..], inner)
  }

  /** The listeners collected while scanning `els[lo..hi]`. */
  function CollectListeners(scripts: Dict<seq<Listener>>, els: seq<Extract>, lo: nat, hi: nat): Dict<seq<Listener>>
    requires lo <= hi <= |els|
    decreases hi
  {
    if lo == hi then scripts
    else
      var before := CollectListeners(scripts, els, lo, hi - 1);
      if IsListener(els[hi - 1]) then AddListeners(before, els[hi - 1].attrs, els[hi - 1].inner) else before
  }

  function AppendLog(target: Target, els: seq<Extract>, indices: seq<nat>): (log: seq<Appended>)
    requires forall j :: 0 <= j < |indices| ==> indices[j] < |els|
    ensures |log| == |indices|
  {
    if indices == [] then [] else [Appended(target, indices[0], els[indices[0]])] + AppendLog(target, els, indices[1..])
  }

  /**
   * The scan of a call from `start` has reached `index`: the log so far
   * plus what the rest of the run appends is what the whole run appends,
   * and the listeners of `els[start..index]` have been collected.
   */
  ghost predicate Progress(target: Target, els: seq<Extract>, start: nat, index: nat,
                           log0: seq<Appended>, log: seq<Appended>, scripts0: Dict<seq<Listener>>, scripts: Dict<seq<Listener>>)
  {
    && start <= index && (start <= |els| ==> index <= |els|) && (index > |els| ==> index == start)
    && log0 + AppendLog(target, els, Run(els, start).0) == log + AppendLog(target, els, Run(els, index).0)
    && Run(els, start).1 == Run(els, index).1 && RunEnd(els, start) == RunEnd(els, index)
    && (index <= |els| ==> scripts == CollectListeners(scripts0, els, start, index))
    && (index > |els| ==> scripts == scripts0)
  }

  /** What a whole call from `start` did to the log and the listeners. */
  ghost predicate Extracted(target: Target, els: seq<Extract>, start: nat,
                            log0: seq<Appended>, log: seq<Appended>, scripts0: Dict<seq<Listener>>, scripts: Dict<seq<Listener>>)
  {
    && log == log0 + AppendLog(target, els, Run(els, start).0)
    && (RunEnd(els, start) <= |els| ==> scripts == CollectListeners(scripts0, els, start, RunEnd(els, start)))
    && (RunEnd(els, start) > |els| ==> scripts == scripts0)
  }

  lemma ProgressStart(target: Target, els: seq<Extract>, start: nat, log: seq<Appended>, scripts: Dict<seq<Listener>>)
    ensures Progress(target, els, start, start, log, log, scripts, scripts)
  {
  }

  /** A listener script is collected, not appended. */
  lemma ProgressListener(target: Target, els: seq<Extract>, start: nat, index: nat,
                         log0: seq<Appended>, log: seq<Appended>, scripts0: Dict<seq<Listener>>, scripts: Dict<seq<Listener>>)
    requires index < |els| && IsListener(els[index]) && Progress(target, els, start, index, log0, log, scripts0, scripts)
    ensures Progress(target, els, start, index + 1, log0, log, scripts0, AddListeners(scripts, els[index].attrs, els[index].inner))
  {
  }

  /** An element that is neither a listener nor external is appended, and the scan goes on. */
  lemma ProgressInternal(target: Target, els: seq<Extract>, start: nat, index: nat,
                         log0: seq<Appended>, log: seq<Appended>, scripts0: Dict<seq<Listener>>, scripts: Dict<seq<Listener>>)
    requires index < |els| && !IsListener(els[index]) && !IsExternal(els[index])
    requires Progress(target, els, start, index, log0, log, scripts0, scripts)
    ensures Progress(target, els, start, index + 1, log0, log + [Appended(target, index, els[index])], scripts0, scripts)
  {
    var rest := AppendLog(target, els, Run(els, index + 1).0);
    assert ([index] + Run(els, index + 1).0)[1..] == Run(els, index + 1).0;
    assert AppendLog(target, els, Run(els, index).0) == [Appended(target, index, els[index])] + rest;
    assert log + ([Appended(target, index, els[index])] + rest) == log + [Appended(target, index, els[index])] + rest;
  }

  /** An external script is appended last; the call ends there. */
  lemma ProgressExternal(target: Target, els: seq<Extract>, start: nat, index: nat,
                         log0: seq<Appended>, log: seq<Appended>, scripts0: Dict<seq<Listener>>, scripts: Dict<seq<Listener>>)
    requires index < |els| && !IsListener(els[index]) && IsExternal(els[index])
    requires Progress(target, els, start, index, log0, log, scripts0, scripts)
    ensures Extracted(target, els, start, log0, log + [Appended(target, index, els[index])], scripts0, scripts)
    ensures Run(els, start).1 && RunEnd(els, start) == index + 1
  {
  }

  /** The scan ran off the end of the list. */
  lemma ProgressEnd(target: Target, els: seq<Extract>, start: nat, index: nat,
                    log0: seq<Appended>, log: seq<Appended>, scripts0: Dict<seq<Listener>>, scripts: Dict<seq<Listener>>)
    requires index >= |els| && Progress(target, els, start, index, log0, log, scripts0, scripts)
    ensures Extracted(target, els, start, log0, log, scripts0, scripts)
    ensures !Run(els, start).1 && (index == |els| <==> start <= |els|)
  {
  }

  /** The elements from `start` on that are not listener scripts, in document order. */
  function NonListeners(els: seq<Extract>, start: nat): seq<nat>
    decreases |els| - start
  {
    if start >= |els| then []
    else (if IsListener(els[start]) then [] else [start]) + NonListeners(els, start + 1)
  }

  /** Everything appended by a call from `start` and by the resumptions it leaves, one after another. */
  function Chain(els: seq<Extract>, start: nat): seq<nat>
    decreases |els| - start
  {
    var r := Run(els, start);
    if r.1 then r.0 + Chain(els, RunEnd(els, start)) else r.0
  }

  /** The listeners collected by a call from `start` and the resumptions it leaves. */
  function ChainListeners(scripts: Dict<seq<Listener>>, els: seq<Extract>, start: nat): Dict<seq<Listener>>
    decreases |els| - start
  {
    var r := Run(els, start);
    if r.1 then ChainListeners(CollectListeners(scripts, els, start, RunEnd(els, start)), els, RunEnd(els, start))
    else if start <= |els| then CollectListeners(scripts, els, start, |els|)
    else scripts
  }

  /** A call appends the non-listeners up to where it stops; the rest is left to its resumption. */
  lemma {:induction false} RunSplits(els: seq<Extract>, start: nat)
    decreases |els| - start
    ensures Run(els, start).1 ==> NonListeners(els, start) == Run(els, start).0 + NonListeners(els, RunEnd(els, start))
    ensures !Run(els, start).1 ==> NonListeners(els, start) == Run(els, start).0
  {
    if start < |els| {
      var rest := NonListeners(els, start + 1);
      assert NonListeners(els, start) == (if IsListener(els[start]) then [] else [start]) + rest;
      if IsListener(els[start]) {
        RunSplits(els, start + 1);
        assert Run(els, start) == Run(els, start + 1);
        assert RunEnd(els, start) == RunEnd(els, start + 1);
      } else if !IsExternal(els[start]) {
        RunSplits(els, start + 1);
        RunSplitsCons(els, start);
      }
    }
  }

  /** The step of `RunSplits` for an element that is appended and does not stop the call. */
  lemma RunSplitsCons(els: seq<Extract>, start: nat)
    requires start < |els| && !IsListener(els[start]) && !IsExternal(els[start])
    requires Run(els, start + 1).1 ==> NonListeners(els, start + 1) == Run(els, start + 1).0 + NonListeners(els, RunEnd(els, start + 1))
    requires !Run(els, start + 1).1 ==> NonListeners(els, start + 1) == Run(els, start + 1).0
    ensures Run(els, start).1 ==> NonListeners(els, start) == Run(els, start).0 + NonListeners(els, RunEnd(els, start))
    ensures !Run(els, start).1 ==> NonListeners(els, start) == Run(els, start).0
  {
    var r := Run(els, start + 1);
    assert Run(els, start) == ([start] + r.0, r.1);
    assert NonListeners(els, start) == [start] + NonListeners(els, start + 1);
    if r.1 {
      assert RunEnd(els, start) == RunEnd(els, start + 1);
      assert [start] + (r.0 + NonListeners(els, RunEnd(els, start))) == ([start] + r.0) + NonListeners(els, RunEnd(els, start));
    }
  }

  /**
   * Across all resumptions, every element that is not a listener script is
   * appended exactly once, in document order, however the external scripts
   * split the work.
   */
  lemma {:induction false} ChainAppendsNonListeners(els: seq<Extract>, start: nat)
    decreases |els| - start
    ensures Chain(els, start) == NonListeners(els, start)
  {
    RunSplits(els, start);
    if Run(els, start).1 {
      ChainAppendsNonListeners(els, RunEnd(els, start));
    }
  }

  /** Collecting `els[lo..mid]` and then `els[mid..hi]` collects `els[lo..hi]`. */
  lemma {:induction false} CollectListenersSplit(scripts: Dict<seq<Listener>>, els: seq<Extract>, lo: nat, mid: nat, hi: nat)
    requires lo <= mid <= hi <= |els|
    decreases hi
    ensures CollectListeners(CollectListeners(scripts, els, lo, mid), els, mid, hi) == CollectListeners(scripts, els, lo, hi)
  {
    if mid < hi {
      CollectListenersSplit(scripts, els, lo, mid, hi - 1);
    }
  }

  /** Across all resumptions, every listener script from `start` on is collected. */
  lemma {:induction false} ChainCollectsListeners(scripts: Dict<seq<Listener>>, els: seq<Extract>, start: nat)
    requires start <= |els|
    decreases |els| - start
    ensures ChainListeners(scripts, els, start) == CollectListeners(scripts, els, start, |els|)
  {
    RunSplits(els, start);
    if Run(els, start).1 {
      var e := RunEnd(els, start);
      ChainCollectsListeners(CollectListeners(scripts, els, start, e), els, e);
      CollectListenersSplit(scripts, els, start, e, |els|);
    }
  }

  /** A call from the first element stops within the list. */
  lemma RunEndWithin(els: seq<Extract>)
    ensures RunEnd(els, 0) <= |els|
  {
  }

  /**
   * The indices `idx` name no listener, increase strictly, and name an
   * external script only as the last one, exactly when `stopped` holds.
   */
  predicate Sequential(els: seq<Extract>, idx: seq<nat>, stopped: bool)
  {
    && (forall j :: 0 <= j < |idx| ==>
          && idx[j] < |els|
          && !IsListener(els[idx[j]])
          && (IsExternal(els[idx[j]]) <==> stopped && j == |idx| - 1))
    && (forall j, l :: 0 <= j < l < |idx| ==> idx[j] < idx[l])
  }

  /**
   * Loading is sequential: a call appends no listener, in increasing order,
   * and appends an external script only as its last element, exactly when
   * it leaves a resumption behind.
   */
  lemma {:induction false} RunSequential(els: seq<Extract>, start: nat)
    decreases |els| - start
    ensures Sequential(els, Run(els, start).0, Run(els, start).1)
  {
    if start < |els| && !IsListener(els[start]) && !IsExternal(els[start]) {
      RunSequential(els, start + 1);
      var r, rest := Run(els, start), Run(els, start + 1);
      assert r.0 == [start] + rest.0 && r.1 == rest.1;
      forall j | 0 <= j < |r.0|
        ensures r.0[j] < |els| && !IsListener(els[r.0[j]]) && (IsExternal(els[r.0[j]]) <==> r.1 && j == |r.0| - 1)
      {
        if j > 0 {
          assert r.0[j] == rest.0[j - 1];
        }
      }
      forall j, l | 0 <= j < l < |r.0|
        ensures r.0[j] < r.0[l]
      {
        assert r.0[l] == rest.0[l - 1];
        if j > 0 {
          assert r.0[j] == rest.0[j - 1];
        }
      }
    } else if start < |els| && IsListener(els[start]) {
      RunSequential(els, start + 1);
    }
  }

  /** The component's extraction state: what was added to the page, the listeners, and the pending resumptions. */
  class Loader {
    var appended: seq<Appended>
    var eventScripts: Dict<seq<Listener>>
    var scriptsLoaded: bool
    var waiting: seq<Resume>

    constructor()
      ensures appended == [] && eventScripts == Empty() && !scriptsLoaded && waiting == []
    {
      appended, eventScripts, scriptsLoaded, waiting := [], Empty(), false, [];
    }

    /**
     * `loadExtract(target, els, start)`: copies each element from `start` on
     * to `target`, except listener scripts; stops after the first external
     * script and leaves a resumption for its load or error; marks the scripts
     * loaded when the body pass reaches the end.
     */
    method LoadExtract(target: Target, els: seq<Extract>, start: nat)
      modifies this
      ensures Extracted(target, els, start, old(appended), appended, old(eventScripts), eventScripts)
      ensures waiting == old(waiting) + (if Run(els, start).1 then [Resume(target, els, RunEnd(els, start))] else [])
      ensures scriptsLoaded == (old(scriptsLoaded) || (target == Body && !Run(els, start).1 && start <= |els|))
    {
      var index := start;
      var log, scripts := appended, eventScripts;
      ProgressStart(target, els, start, log, scripts);
      while index < |els|
        invariant Progress(target, els, start, index, old(appended), log, old(eventScripts), scripts)
        invariant waiting == old(waiting) && scriptsLoaded == old(scriptsLoaded)
        decreases |els| - index
      {
        var el := els[index];
        if IsListener(el) {
          // a lifecycle script: compiled into listeners, never appended
          ProgressListener(target, els, start, index, old(appended), log, old(eventScripts), scripts);
          scripts := AddListeners(scripts, el.attrs, el.inner);
        } else if IsExternal(el) {
          // the rest waits for this script's load or error
          ProgressExternal(target, els, start, index, old(appended), log, old(eventScripts), scripts);
          appended, eventScripts := log + [Appended(target, index, el)], scripts;
          waiting := waiting + [Resume(target, els, index + 1)];
          return;
        } else {
          ProgressInternal(target, els, start, index, old(appended), log, old(eventScripts), scripts);
          log := log + [Appended(target, index, el)];
        }
        index := index + 1;
      }
      ProgressEnd(target, els, start, index, old(appended), log, old(eventScripts), scripts);
      appended, eventScripts := log, scripts;
      if target == Body && index == |els| {
        scriptsLoaded := true;
      }
    }

    /**
     * The `onload` / `onerror` of a pending external script: the scan resumes
     * with `loadExtract(target, els, index + 1)`.
     */
    method Settle(k: nat)
      requires k < |waiting|
      modifies this
      ensures var r := old(waiting)[k];
        && Extracted(r.target, r.els, r.next, old(appended), appended, old(eventScripts), eventScripts)
        && waiting == old(waiting)[..k] + old(waiting)[k + 1..]
                      + (if Run(r.els, r.next).1 then [Resume(r.target, r.els, RunEnd(r.els, r.next))] else [])
        && scriptsLoaded == (old(scriptsLoaded) || (r.target == Body && !Run(r.els, r.next).1 && r.next <= |r.els|))
    {
      var r := waiting[k];
      waiting := waiting[..k] + waiting[k + 1..];
      LoadExtract(r.target, r.els, r.next);
    }

    /**
     * The two calls `registerComponent` makes on a fresh component: the
     * template's stylesheets into the head, then its scripts into the body,
     * each from the first element.
     */
    method ExtractTemplate(head: seq<Extract>, body: seq<Extract>)
      requires appended == [] && eventScripts == Empty() && !scriptsLoaded && waiting == []
      modifies this
      ensures appended == AppendLog(Head, head, Run(head, 0).0) + AppendLog(Body, body, Run(body, 0).0)
      ensures waiting == (if Run(head, 0).1 then [Resume(Head, head, RunEnd(head, 0))] else [])
                         + (if Run(body, 0).1 then [Resume(Body, body, RunEnd(body, 0))] else [])
      ensures scriptsLoaded == !Run(body, 0).1
      ensures eventScripts == CollectListeners(CollectListeners(Empty(), head, 0, RunEnd(head, 0)), body, 0, RunEnd(body, 0))
    {
      RunEndWithin(head);
      RunEndWithin(body);
      LoadExtract(Head, head, 0);
      assert [] + AppendLog(Head, head, Run(head, 0).0) == AppendLog(Head, head, Run(head, 0).0);
      assert eventScripts == CollectListeners(Empty(), head, 0, RunEnd(head, 0));
      LoadExtract(Body, body, 0);
    }
  }
}

=== FILE: microtemplate.dfy ===
/**
 * The front end of `microtemplate`, uifactory's port of lodash's
 * `_.template` with the default settings: the delimiter scan, the
 * tokenisation into literal text and escape / interpolate / `${}` /
 * evaluate tags, the escaping of literal text for a single-quoted string
 * literal, the `variable` check, and the text of the generated function.
 * Building a function from that text is not modelled.
 */
module Microtemplate {
  import opened Common

  /** The four capturing alternatives of `reDelimiters`, in the order they are tried. */
  datatype Kind = EscapeTag | InterpolateTag | EsTemplateTag | EvaluateTag

  /** One delimiter match: its kind, the captured group and the length of the whole match. */
  datatype Delim = Delim(kind: Kind, body: string, len: nat)

  /** The scan's output: literal slices between matches, and the matches themselves. */
  datatype Piece = Text(text: string) | Tag(kind: Kind, body: string)

  function Open(k: Kind): string
  {
    match k
    case EscapeTag => "<%-"
    case InterpolateTag => "<%="
    case EsTemplateTag => "${"
    case EvaluateTag => "<%"
  }

  function Close(k: Kind): string
  {
    if k == EsTemplateTag then "}" else "%>"
  }

  /** The source text a tag was read from. */
  function Raw(k: Kind, body: string): string
  {
    Open(k) + body + Close(k)
  }

  // ---------------------------------------------------------------------------
  // Matching one alternative at a position

  /** The opening delimiter of kind `k` at `p`, tested character by character. */
  predicate OpensAt(s: string, p: nat, k: Kind)
  {
    match k
    case EscapeTag => p + 2 < |s| && s[p] == '<' && s[p + 1] == '%' && s[p + 2] == '-'
    case InterpolateTag => p + 2 < |s| && s[p] == '<' && s[p + 1] == '%' && s[p + 2] == '='
    case EsTemplateTag => p + 1 < |s| && s[p] == '$' && s[p + 1] == '{'
    case EvaluateTag => p + 1 < |s| && s[p] == '<' && s[p + 1] == '%'
  }

  /** "%>" at `j`. */
  predicate ClosesAt(s: string, j: nat)
  {
    j + 1 < |s| && s[j] == '%' && s[j + 1] == '>'
  }

  lemma OpensAtSlice(s: string, p: nat, k: Kind)
    requires OpensAt(s, p, k)
    ensures p + |Open(k)| <= |s| && s[p..p + |Open(k)|] == Open(k)
  {
  }

  /** The closing delimiter of kind `k` at `c`. */
  lemma ClosesAtSlice(s: string, c: nat, k: Kind)
    requires if k == EsTemplateTag then c < |s| && s[c] == '}' else ClosesAt(s, c)
    ensures c + |Close(k)| <= |s| && s[c..c + |Close(k)|] == Close(k)
  {
    if k == EsTemplateTag {
      assert s[c..c + 1] == [s[c]];
    } else {
      assert s[c..c + 2] == [s[c], s[c + 1]];
    }
  }

  /** A delimiter opened at `p` and closed at `c` spans its raw text. */
  lemma DelimAtRaw(s: string, p: nat, k: Kind, c: nat)
    requires p + |Open(k)| <= c && c + |Close(k)| <= |s|
    requires s[p..p + |Open(k)|] == Open(k) && s[c..c + |Close(k)|] == Close(k)
    ensures s[p..p + DelimAt(s, p, k, c).len] == Raw(k, DelimAt(s, p, k, c).body)
  {
    SliceThree(s, p, p + |Open(k)|, c, c + |Close(k)|);
  }

  lemma SliceThree(s: string, p: nat, b: nat, c: nat, e: nat)
    requires p <= b <= c <= e <= |s|
    ensures s[p..e] == s[p..b] + s[b..c] + s[c..e]
  {
    assert s[p..e] == s[p..b] + s[b..e];
    assert s[b..e] == s[b..c] + s[c..e];
  }

  /** The lazy `([\s\S]+?)%>`: the first "%>" at or after `from`. */
  function FindClose(s: string, from: nat): (r: Option<nat>)
    decreases |s| - from
    ensures r.Some? ==> from <= r.value && ClosesAt(s, r.value)
  {
    if from + 2 > |s| then None
    else if ClosesAt(s, from) then Some(from)
    else FindClose(s, from + 1)
  }

  /** The match is lazy: no "%>" lies between `from` and the one found, and none at all when nothing is found. */
  lemma {:induction false} FindCloseFirst(s: string, from: nat)
    decreases |s| - from
    ensures FindClose(s, from).Some? ==> forall j :: from <= j < FindClose(s, from).value ==> !ClosesAt(s, j)
    ensures FindClose(s, from).None? ==> forall j :: from <= j ==> !ClosesAt(s, j)
  {
    if from + 2 <= |s| && !ClosesAt(s, from) {
      FindCloseFirst(s, from + 1);
    }
  }

  /** The language of `[^\\}]*(?:\\.[^\\}]*)*`: no bare '}', and every '\' escapes a non-line-terminator. */
  predicate EsBody(t: string)
    decreases |t|
  {
    || t == []
    || (t[0] != '}' && t[0] != '\\' && EsBody(t[1..]))
    || (|t| >= 2 && t[0] == '\\' && !IsLineTerminator(t[1]) && EsBody(t[2..]))
  }

  /** The closing '}' of `\$\{([^\\}]*(?:\\.[^\\}]*)*)\}` whose body starts at `i`. */
  function EsClose(s: string, i: nat): (r: Option<nat>)
    requires i <= |s|
    decreases |s| - i
    ensures r.Some? ==> i <= r.value < |s| && s[r.value] == '}'
  {
    if i == |s| then None
    else if s[i] == '}' then Some(i)
    else if s[i] == '\\' then
      (if i + 1 < |s| && !IsLineTerminator(s[i + 1]) then EsClose(s, i + 2) else None)
    else EsClose(s, i + 1)
  }

  /** What `EsClose` finds closes a body in the language of the group. */
  lemma {:induction false} EsCloseBody(s: string, i: nat)
    requires i <= |s|
    decreases |s| - i
    ensures EsClose(s, i).Some? ==> EsBody(s[i..EsClose(s, i).value])
  {
    if i < |s| && s[i] != '}' {
      if s[i] == '\\' {
        if i + 1 < |s| && !IsLineTerminator(s[i + 1]) {
          EsCloseBody(s, i + 2);
          if EsClose(s, i + 2).Some? {
            assert s[i..EsClose(s, i).value][2..] == s[i + 2..EsClose(s, i).value];
          }
        }
      } else {
        EsCloseBody(s, i + 1);
        if EsClose(s, i + 1).Some? {
          assert s[i..EsClose(s, i).value][1..] == s[i + 1..EsClose(s, i).value];
        }
      }
    }
  }

  /**
   * And it is the only one: any '}' at `j` whose body `s[i..j]` is in the
   * group's language is the one `EsClose` finds.
   */
  lemma {:induction false} EsCloseOnly(s: string, i: nat, j: nat)
    requires i <= j < |s| && s[j] == '}' && EsBody(s[i..j])
    decreases j - i
    ensures EsClose(s, i) == Some(j)
  {
    if i < j {
      var t := s[i..j];
      if t[0] == '\\' {
        assert t[2..] == s[i + 2..j];
        EsCloseOnly(s, i + 2, j);
      } else {
        assert t[1..] == s[i + 1..j];
        EsCloseOnly(s, i + 1, j);
      }
    }
  }

  /** So when `EsClose` finds nothing, `\$\{([^\\}]*(?:\\.[^\\}]*)*)\}` cannot match a body starting at `i`. */
  lemma EsCloseComplete(s: string, i: nat)
    requires i <= |s|
    ensures EsClose(s, i).None? ==> forall j :: i <= j < |s| && s[j] == '}' ==> !EsBody(s[i..j])
    ensures EsClose(s, i).Some? ==> forall j :: i <= j < |s| && s[j] == '}' && EsBody(s[i..j]) ==> j == EsClose(s, i).value
  {
    forall j | i <= j < |s| && s[j] == '}' && EsBody(s[i..j])
      ensures EsClose(s, i) == Some(j)
    {
      EsCloseOnly(s, i, j);
    }
  }

  /** The delimiter of kind `k` opened at `p` and closed at `c`. */
  function DelimAt(s: string, p: nat, k: Kind, c: nat): (d: Delim)
    requires p + |Open(k)| <= c && c + |Close(k)| <= |s|
    ensures d.kind == k && 0 < d.len && p + d.len <= |s|
  {
    Delim(k, s[p + |Open(k)|..c], c + |Close(k)| - p)
  }

  /**
   * The alternation `escape | interpolate | esTemplate | evaluate` tried at
   * offset `p`; the first alternative that matches wins.
   */
  function MatchAt(s: string, p: nat): (r: Option<Delim>)
    requires p <= |s|
    ensures r.Some? ==> 0 < r.value.len && p + r.value.len <= |s|
  {
    if OpensAt(s, p, EscapeTag) && FindClose(s, p + 4).Some? then
      Some(DelimAt(s, p, EscapeTag, FindClose(s, p + 4).value))
    else if OpensAt(s, p, InterpolateTag) && FindClose(s, p + 4).Some? then
      Some(DelimAt(s, p, InterpolateTag, FindClose(s, p + 4).value))
    else if OpensAt(s, p, EsTemplateTag) && EsClose(s, p + 2).Some? then
      Some(DelimAt(s, p, EsTemplateTag, EsClose(s, p + 2).value))
    else if OpensAt(s, p, EvaluateTag) && FindClose(s, p + 3).Some? then
      Some(DelimAt(s, p, EvaluateTag, FindClose(s, p + 3).value))
    else None
  }

  lemma RawAt(s: string, p: nat, k: Kind, c: nat)
    requires OpensAt(s, p, k) && p + |Open(k)| <= c
    requires if k == EsTemplateTag then c < |s| && s[c] == '}' else ClosesAt(s, c)
    ensures c + |Close(k)| <= |s|
    ensures s[p..p + DelimAt(s, p, k, c).len] == Raw(k, DelimAt(s, p, k, c).body)
  {
    OpensAtSlice(s, p, k);
    ClosesAtSlice(s, c, k);
    DelimAtRaw(s, p, k, c);
  }

  /** A match spans exactly the raw text of its tag. */
  lemma MatchAtRaw(s: string, p: nat)
    requires p <= |s| && MatchAt(s, p).Some?
    ensures s[p..p + MatchAt(s, p).value.len] == Raw(MatchAt(s, p).value.kind, MatchAt(s, p).value.body)
  {
    if OpensAt(s, p, EscapeTag) && FindClose(s, p + 4).Some? {
      RawAt(s, p, EscapeTag, FindClose(s, p + 4).value);
    } else if OpensAt(s, p, InterpolateTag) && FindClose(s, p + 4).Some? {
      RawAt(s, p, InterpolateTag, FindClose(s, p + 4).value);
    } else if OpensAt(s, p, EsTemplateTag) && EsClose(s, p + 2).Some? {
      RawAt(s, p, EsTemplateTag, EsClose(s, p + 2).value);
    } else {
      RawAt(s, p, EvaluateTag, FindClose(s, p + 3).value);
    }
  }

  // ---------------------------------------------------------------------------
  // The scan

  /** Each entry is empty or a match that lies within `s`, as `MatchAt`'s are. */
  predicate Fits(s: string, ms: seq<Option<Delim>>)
  {
    |ms| == |s| && forall i :: 0 <= i < |ms| && ms[i].Some? ==> 0 < ms[i].value.len && i + ms[i].value.len <= |s|
  }

  /** What the alternation matches at each offset of `s`. */
  function Table(s: string): (ms: seq<Option<Delim>>)
    ensures Fits(s, ms)
    ensures forall i :: 0 <= i < |s| ==> ms[i] == MatchAt(s, i)
  {
    seq(|s|, i requires 0 <= i < |s| => MatchAt(s, i))
  }

  /**
   * `string.replace(reDelimiters, ...)`, where `ms[p]` is what the pattern
   * matches at offset `p`: literal text pending since `index`, searching
   * from `p`. The final `$` alternative matches the empty string at the end
   * and flushes the last literal.
   */
  function ScanFrom(s: string, ms: seq<Option<Delim>>, index: nat, p: nat): seq<Piece>
    requires Fits(s, ms) && index <= p <= |s|
    decreases |s| - p
  {
    if p == |s| then [Text(s[index..])]
    else match ms[p]
      case Some(d) => [Text(s[index..p]), Tag(d.kind, d.body)] + ScanFrom(s, ms, p + d.len, p + d.len)
      case None => ScanFrom(s, ms, index, p + 1)
  }

  function Tokenize(s: string): seq<Piece>
  {
    ScanFrom(s, Table(s), 0, 0)
  }

  /** The text a piece list was read from. */
  function Flatten(ps: seq<Piece>): string
  {
    if ps == [] then []
    else (match ps[0] case Text(t) => t case Tag(k, b) => Raw(k, b)) + Flatten(ps[1..])
  }

  // ---------------------------------------------------------------------------
  // Escaping literal text for a single-quoted string literal

  /** The characters of `reUnescapedString`. */
  predicate NeedsStringEscape(c: char)
  {
    c == '\\' || c == '\'' || c == '\n' || c == '\r' || c == '\U{2028}' || c == '\U{2029}'
  }

  /** `escapeStringChar`: a backslash and the `stringEscapes` code. */
  function EscapeStringChar(c: char): string
    requires NeedsStringEscape(c)
  {
    if c == '\\' then "\\\\"
    else if c == '\'' then "\\'"
    else if c == '\n' then "\\n"
    else if c == '\r' then "\\r"
    else if c == '\U{2028}' then "\\u2028"
    else "\\u2029"
  }

  /** What the `replace` leaves in place of one character. */
  function EncodeChar(c: char): (r: string)
    ensures forall i :: 0 <= i < |r| ==> !IsLineTerminator(r[i])
  {
    if NeedsStringEscape(c) then EscapeStringChar(c) else [c]
  }

  /** `slice.replace(reUnescapedString, escapeStringChar)`. */
  function EscapeLiteral(t: string): (r: string)
    ensures forall i :: 0 <= i < |r| ==> !IsLineTerminator(r[i])
  {
    if t == [] then [] else EncodeChar(t[0]) + EscapeLiteral(t[1..])
  }

  function HexDigit(c: char): Option<nat>
  {
    if '0' <= c <= '9' then Some(c as nat - '0' as nat)
    else if 'a' <= c <= 'f' then Some(c as nat - 'a' as nat + 10)
    else if 'A' <= c <= 'F' then Some(c as nat - 'A' as nat + 10)
    else None
  }

  /** The code unit of `\uXXXX`, when it names a character. */
  function HexChar(h: string): Option<char>
    requires |h| == 4
  {
    if HexDigit(h[0]).None? || HexDigit(h[1]).None? || HexDigit(h[2]).None? || HexDigit(h[3]).None? then None
    else
      var v := ((HexDigit(h[0]).value * 16 + HexDigit(h[1]).value) * 16 + HexDigit(h[2]).value) * 16 + HexDigit(h[3]).value;
      if v < 0xD800 || 0xE000 <= v then Some(v as char) else None
  }

  /**
   * How a JavaScript engine reads the body of a single-quoted string literal
   * written with the escapes above (`\\`, `\'`, `\n`, `\r`, `\uXXXX`); `None`
   * when the text would end the literal early, break its line, or use an
   * escape outside that set.
   */
  function ReadLiteral(r: string): Option<string>
  {
    if r == [] then Some([])
    else if r[0] == '\\' then
      if |r| < 2 then None
      else
        var code :=
          if r[1] == '\\' then Some(('\\', 2))
          else if r[1] == '\'' then Some(('\'', 2))
          else if r[1] == 'n' then Some(('\n', 2))
          else if r[1] == 'r' then Some(('\r', 2))
          else if r[1] == 'u' && |r| >= 6 && HexChar(r[2..6]).Some? then Some((HexChar(r[2..6]).value, 6))
          else None;
        match code
        case None => None
        case Some(cn) =>
          match ReadLiteral(r[cn.1..])
          case None => None
          case Some(rest) => Some([cn.0] + rest)
    else if r[0] == '\'' || IsLineTerminator(r[0]) then None
    else
      match ReadLiteral(r[1..])
      case None => None
      case Some(rest) => Some([r[0]] + rest)
  }

  // ---------------------------------------------------------------------------
  // The generated source

  /** Closes the literal, appends the HTML-escaped value of `b`, reopens the literal. */
  function EscapeSnippet(b: string): string
  {
    "' +\n__e(" + b + ") +\n'"
  }

  /** Closes the statement, splices `b` in as statements, opens a new `__p +=` literal. */
  function EvaluateSnippet(b: string): string
  {
    "';\n" + b + ";\n__p += '"
  }

  /** Closes the literal, appends the value of `b` (or nothing for null / undefined), reopens the literal. */
  function InterpolateSnippet(b: string): string
  {
    "' +\n((__t = (" + b + ")) == null ? '' : __t) +\n'"
  }

  /** The snippet appended for one piece; a tag with an empty (falsy) group adds nothing. */
  function Emit(p: Piece): string
  {
    match p
    case Text(t) => EscapeLiteral(t)
    case Tag(k, b) =>
      if b == "" then ""
      else if k == EscapeTag then EscapeSnippet(b)
      else if k == EvaluateTag then EvaluateSnippet(b)
      else InterpolateSnippet(b)
  }

  function EmitAll(ps: seq<Piece>): string
  {
    if ps == [] then "" else Emit(ps[0]) + EmitAll(ps[1..])
  }

  /** Some tag of kind `k` with a non-empty group: what sets `isEscaping` / `isEvaluating`. */
  predicate Uses(ps: seq<Piece>, k: Kind)
  {
    exists i :: 0 <= i < |ps| && ps[i].Tag? && ps[i].kind == k && ps[i].body != ""
  }

  /** The whitespace class `\s` of JavaScript regular expressions. */
  predicate IsJsWhitespace(c: char)
  {
    || c == '\t' || c == '\n' || c == '\U{000B}' || c == '\U{000C}' || c == '\r' || c == ' '
    || c == '\U{00A0}' || c == '\U{1680}' || ('\U{2000}' <= c <= '\U{200A}')
    || c == '\U{2028}' || c == '\U{2029}' || c == '\U{202F}' || c == '\U{205F}'
    || c == '\U{3000}' || c == '\U{FEFF}'
  }

  /** `reForbiddenIdentifierChars`. */
  predicate IsForbiddenIdentifierChar(c: char)
  {
    c == '(' || c == ')' || c == '=' || c == ',' || c == '{' || c == '}'
    || c == '[' || c == ']' || c == '/' || IsJsWhitespace(c)
  }

  predicate HasForbiddenChar(v: string)
  {
    exists i :: 0 <= i < |v| && IsForbiddenIdentifierChar(v[i])
  }

  datatype CompileError = InvalidVariable

  /** The text the body starts and ends with: one `__p += '...'` statement, split by the tags. */
  const BodyStart: string := "__p += '"
  const BodyEnd: string := "';\n"

  /** The function header: the parameter, defaulted to `{}` when it is the implicit `obj`. */
  function Signature(variable: string): string
  {
    "function(" + (if variable == "" then "obj" else variable) + ") {\n"
    + (if variable == "" then "obj || (obj = {});\n" else "")
  }

  /** The local variables; `__e` only when a tag escapes, `__j` and `print` only when one evaluates. */
  function Locals(escaping: bool, evaluating: bool): string
  {
    "var __t, __p = ''"
    + (if escaping then ", __e = uifactory.escape" else "")
    + (if evaluating
       then ", __j = Array.prototype.join;\nfunction print() { __p += __j.call(arguments, '') }\n"
       else ";\n")
  }

  const WithOpen: string := "with (obj) {\n"
  const WithClose: string := "\n}\n"
  const Return: string := "return __p\n}"

  /** The function text framed around the scanned body. */
  function Frame(body: string, variable: string, escaping: bool, evaluating: bool): string
  {
    var src := if variable == "" then WithOpen + body + WithClose else body;
    Signature(variable) + Locals(escaping, evaluating) + src + Return
  }

  /** What `microtemplate(s, {variable})` generates, or the error it throws. */
  function CompileSpec(s: string, variable: string): Result<string, CompileError>
  {
    var ps := Tokenize(s);
    if variable != "" && HasForbiddenChar(variable) then Failure(InvalidVariable)
    else Success(Frame(BodyStart + EmitAll(ps) + BodyEnd, variable, Uses(ps, EscapeTag), Uses(ps, EvaluateTag)))
  }

  lemma {:induction false} EmitAllAppend(a: seq<Piece>, b: seq<Piece>)
    ensures EmitAll(a + b) == EmitAll(a) + EmitAll(b)
  {
    if a != [] {
      assert (a + b)[1..] == a[1..] + b;
      EmitAllAppend(a[1..], b);
    } else {
      assert a + b == b;
    }
  }

  lemma UsesAppend(a: seq<Piece>, b: seq<Piece>, k: Kind)
    ensures Uses(a + b, k) == (Uses(a, k) || Uses(b, k))
  {
    if Uses(a + b, k) {
      var i :| 0 <= i < |a + b| && (a + b)[i].Tag? && (a + b)[i].kind == k && (a + b)[i].body != "";
      if i >= |a| { assert b[i - |a|] == (a + b)[i]; } else { assert a[i] == (a + b)[i]; }
    }
    if Uses(a, k) {
      var i :| 0 <= i < |a| && a[i].Tag? && a[i].kind == k && a[i].body != "";
      assert (a + b)[i] == a[i];
    }
    if Uses(b, k) {
      var i :| 0 <= i < |b| && b[i].Tag? && b[i].kind == k && b[i].body != "";
      assert (a + b)[i + |a|] == b[i];
    }
  }

  /** The scan so far produced `done`, with literal text pending since `index` and the search at `p`. */
  ghost predicate ScannedUpTo(s: string, ms: seq<Option<Delim>>, target: seq<Piece>, done: seq<Piece>, index: nat, p: nat)
  {
    Fits(s, ms) && index <= p <= |s| && done + ScanFrom(s, ms, index, p) == target
  }

  /** Where nothing matches, the scan moves one character on. */
  lemma ScanSkip(s: string, ms: seq<Option<Delim>>, index: nat, p: nat)
    requires Fits(s, ms) && index <= p < |s| && ms[p].None?
    ensures ScanFrom(s, ms, index, p) == ScanFrom(s, ms, index, p + 1)
  {
  }

  /** A match at `p` contributes the pending literal and the tag; the scan resumes after the match. */
  lemma ScanMatch(s: string, ms: seq<Option<Delim>>, index: nat, p: nat, d: Delim)
    requires Fits(s, ms) && index <= p < |s| && ms[p] == Some(d)
    ensures p + d.len <= |s|
    ensures ScanFrom(s, ms, index, p) == [Text(s[index..p]), Tag(d.kind, d.body)] + ScanFrom(s, ms, p + d.len, p + d.len)
  {
  }

  /** The scan state after a match at `p` that ends at `q`. */
  lemma ScanMatchStep(s: string, ms: seq<Option<Delim>>, target: seq<Piece>, done: seq<Piece>, index: nat, p: nat, d: Delim, q: nat)
    requires p < |s| && ScannedUpTo(s, ms, target, done, index, p) && ms[p] == Some(d) && q == p + d.len
    ensures ScannedUpTo(s, ms, target, done + [Text(s[index..p]), Tag(d.kind, d.body)], q, q)
  {
    var pair := [Text(s[index..p]), Tag(d.kind, d.body)];
    ScanMatch(s, ms, index, p, d);
    var rest := ScanFrom(s, ms, q, q);
    assert done + (pair + rest) == target;
    AppendAssoc(done, pair, rest);
  }

  /** What the tag of a match adds to the body text and to the two flags. */
  lemma EmitMatch(done: seq<Piece>, t: string, k: Kind, b: string)
    ensures EmitAll(done + [Text(t), Tag(k, b)]) == EmitAll(done) + (EscapeLiteral(t) + Emit(Tag(k, b)))
    ensures Uses(done + [Text(t), Tag(k, b)], EscapeTag) == (Uses(done, EscapeTag) || (k == EscapeTag && b != ""))
    ensures Uses(done + [Text(t), Tag(k, b)], EvaluateTag) == (Uses(done, EvaluateTag) || (k == EvaluateTag && b != ""))
  {
    var pair := [Text(t), Tag(k, b)];
    EmitAllAppend(done, pair);
    EmitPair(t, k, b);
    UsesAppend(done, pair, EscapeTag);
    UsesAppend(done, pair, EvaluateTag);
    UsesPair(t, k, b, EscapeTag);
    UsesPair(t, k, b, EvaluateTag);
  }

  lemma EmitPair(t: string, k: Kind, b: string)
    ensures EmitAll([Text(t), Tag(k, b)]) == EscapeLiteral(t) + Emit(Tag(k, b))
  {
    var pair := [Text(t), Tag(k, b)];
    assert pair[1..] == [Tag(k, b)];
    assert [Tag(k, b)][1..] == [];
    assert EmitAll([Tag(k, b)]) == Emit(Tag(k, b)) + EmitAll([]);
  }

  lemma AppendAssoc<T>(a: seq<T>, b: seq<T>, c: seq<T>)
    ensures (a + b) + c == a + (b + c)
  {
  }

  /** The literal flushed by the final empty match. */
  lemma LastPiece(t: string)
    ensures EmitAll([Text(t)]) == EscapeLiteral(t)
    ensures !Uses([Text(t)], EscapeTag) && !Uses([Text(t)], EvaluateTag)
  {
    assert [Text(t)][1..] == [];
  }

  lemma ConcatAssoc(a: string, b: string, c: string, d: string)
    ensures (a + b) + c + d == a + (b + (c + d))
  {
  }

  lemma UsesPair(t: string, k: Kind, b: string, k': Kind)
    ensures Uses([Text(t), Tag(k, b)], k') == (k == k' && b != "")
  {
    var pair := [Text(t), Tag(k, b)];
    assert pair[1].Tag? && pair[1].kind == k && pair[1].body == b;
    if Uses(pair, k') {
      var i :| 0 <= i < |pair| && pair[i].Tag? && pair[i].kind == k' && pair[i].body != "";
      assert i == 1;
    }
  }

  /**
   * The `replace` callback for a delimiter match at `offset`: append the
   * escaped literal text since `index`, then the snippet for the tag.
   */
  method OnMatch(s: string, index: nat, offset: nat, d: Delim, source: string, isEscaping: bool, isEvaluating: bool)
    returns (source': string, isEscaping': bool, isEvaluating': bool)
    requires index <= offset <= |s|
    ensures source' == source + EscapeLiteral(s[index..offset]) + Emit(Tag(d.kind, d.body))
    ensures isEscaping' == (isEscaping || (d.kind == EscapeTag && d.body != ""))
    ensures isEvaluating' == (isEvaluating || (d.kind == EvaluateTag && d.body != ""))
  {
    source', isEscaping', isEvaluating' := source + EscapeLiteral(s[index..offset]), isEscaping, isEvaluating;
    if d.kind == EscapeTag && d.body != "" {
      isEscaping' := true;
      source' := source' + EscapeSnippet(d.body);
    }
    if d.kind == EvaluateTag && d.body != "" {
      isEvaluating' := true;
      source' := source' + EvaluateSnippet(d.body);
    }
    if (d.kind == InterpolateTag || d.kind == EsTemplateTag) && d.body != "" {
      source' := source' + InterpolateSnippet(d.body);
    }
  }

  /** The loop state of `Compile`: the scan so far, and the source text and flags it has produced. */
  ghost predicate CompileInv(s: string, target: seq<Piece>, done: seq<Piece>, index: nat, p: nat, source: string, isEscaping: bool, isEvaluating: bool)
  {
    ScannedUpTo(s, Table(s), target, done, index, p)
    && source == BodyStart + EmitAll(done)
    && isEscaping == Uses(done, EscapeTag) && isEvaluating == Uses(done, EvaluateTag)
  }

  /**
   * One step of the global `replace`: try the delimiter pattern at `p`; on a
   * match run the callback and resume after it, otherwise move one character on.
   */
  method ReplaceStep(s: string, ghost target: seq<Piece>, ghost done: seq<Piece>, index: nat, p: nat, source: string, isEscaping: bool, isEvaluating: bool)
    returns (ghost done': seq<Piece>, index': nat, p': nat, source': string, isEscaping': bool, isEvaluating': bool)
    requires p < |s| && CompileInv(s, target, done, index, p, source, isEscaping, isEvaluating)
    ensures p < p' && CompileInv(s, target, done', index', p', source', isEscaping', isEvaluating')
  {
    ghost var ms := Table(s);
    var m := MatchAt(s, p);
    assert ms[p] == m;
    if m.Some? {
      var d := m.value;
      EmitMatch(done, s[index..p], d.kind, d.body);
      ConcatAssoc(BodyStart, EmitAll(done), EscapeLiteral(s[index..p]), Emit(Tag(d.kind, d.body)));
      source', isEscaping', isEvaluating' := OnMatch(s, index, p, d, source, isEscaping, isEvaluating);
      var q := p + d.len;
      ScanMatchStep(s, ms, target, done, index, p, d, q);
      done', index', p' := done + [Text(s[index..p]), Tag(d.kind, d.body)], q, q;
    } else {
      ScanSkip(s, ms, index, p);
      done', index', p', source', isEscaping', isEvaluating' := done, index, p + 1, source, isEscaping, isEvaluating;
    }
  }

  /** Once the search reaches the end, only the pending literal is left to scan. */
  lemma ScanLast(s: string, ms: seq<Option<Delim>>, target: seq<Piece>, done: seq<Piece>, index: nat, p: nat)
    requires p >= |s| && ScannedUpTo(s, ms, target, done, index, p)
    ensures index <= |s| && target == done + [Text(s[index..])]
  {
  }

  lemma ScanEnd(s: string, target: seq<Piece>, done: seq<Piece>, index: nat, source: string, isEscaping: bool, isEvaluating: bool)
    requires index <= |s| && target == done + [Text(s[index..])]
    requires source == BodyStart + EmitAll(done)
    requires isEscaping == Uses(done, EscapeTag) && isEvaluating == Uses(done, EvaluateTag)
    ensures source + EscapeLiteral(s[index..]) + BodyEnd == BodyStart + EmitAll(target) + BodyEnd
    ensures isEscaping == Uses(target, EscapeTag) && isEvaluating == Uses(target, EvaluateTag)
  {
    var last := [Text(s[index..])];
    EmitAllAppend(done, last);
    UsesAppend(done, last, EscapeTag);
    UsesAppend(done, last, EvaluateTag);
    LastPiece(s[index..]);
    ConcatAssoc(BodyStart, EmitAll(done), EscapeLiteral(s[index..]), BodyEnd);
  }

  /**
   * `microtemplate(s, {variable})` up to the `Function(...)` call: the
   * `replace` callback loop appending to `source` while tracking `index`,
   * `isEscaping` and `isEvaluating`, then the `variable` check and the frame.
   */
  method Compile(s: string, variable: string) returns (r: Result<string, CompileError>)
    ensures r == CompileSpec(s, variable)
    ensures r.Failure? <==> variable != "" && HasForbiddenChar(variable)
  {
    var isEscaping, isEvaluating := false, false;
    var index: nat, p: nat := 0, 0;
    var source := BodyStart;
    ghost var done: seq<Piece> := [];
    ghost var target := Tokenize(s);
    while p < |s|
      invariant CompileInv(s, target, done, index, p, source, isEscaping, isEvaluating)
      decreases |s| - p
    {
      done, index, p, source, isEscaping, isEvaluating := ReplaceStep(s, target, done, index, p, source, isEscaping, isEvaluating);
    }
    // the empty match of `$` at the end flushes the remaining literal
    ScanLast(s, Table(s), target, done, index, p);
    ScanEnd(s, target, done, index, source, isEscaping, isEvaluating);
    source := source + EscapeLiteral(s[index..]);
    source := source + BodyEnd;
    if variable != "" && HasForbiddenChar(variable) {
      return Failure(InvalidVariable);
    }
    r := Success(Frame(source, variable, isEscaping, isEvaluating));
  }

  /**
   * Without a `variable` the function takes `obj`, defaults it to `{}`, and
   * runs the body inside `with (obj)`, so the template reads the data's
   * keys as variables.
   */
  lemma NoVariableWrapsWith(s: string)
    ensures CompileSpec(s, "").Success?
    ensures var f := CompileSpec(s, "").value;
      var body := BodyStart + EmitAll(Tokenize(s)) + BodyEnd;
      exists locals: string :: f == Signature("") + locals + (WithOpen + body + WithClose) + Return
  {
    var ps := Tokenize(s);
    var locals := Locals(Uses(ps, EscapeTag), Uses(ps, EvaluateTag));
    var body := BodyStart + EmitAll(ps) + BodyEnd;
    assert CompileSpec(s, "").value == Signature("") + locals + (WithOpen + body + WithClose) + Return;
  }

  /** A named `variable` is the function's parameter, and no `with` is added. */
  lemma VariableIsParameter(s: string, variable: string)
    requires variable != "" && !HasForbiddenChar(variable)
    ensures CompileSpec(s, variable).Success?
    ensures var f := CompileSpec(s, variable).value;
      var body := BodyStart + EmitAll(Tokenize(s)) + BodyEnd;
      exists locals: string :: f == Signature(variable) + locals + body + Return
  {
    var ps := Tokenize(s);
    var locals := Locals(Uses(ps, EscapeTag), Uses(ps, EvaluateTag));
    var body := BodyStart + EmitAll(ps) + BodyEnd;
    assert CompileSpec(s, variable).value == Signature(variable) + locals + body + Return;
  }

  // ---------------------------------------------------------------------------
  // Properties of the scan and of the literal escaping

  lemma {:induction false} FlattenAppend(a: seq<Piece>, b: seq<Piece>)
    ensures Flatten(a + b) == Flatten(a) + Flatten(b)
  {
    if a != [] {
      assert (a + b)[1..] == a[1..] + b;
      FlattenAppend(a[1..], b);
    } else {
      assert a + b == b;
    }
  }

  /** Every entry of `ms` stands for its raw text in `s`. */
  ghost predicate Raws(s: string, ms: seq<Option<Delim>>)
    requires Fits(s, ms)
  {
    forall i :: 0 <= i < |ms| && ms[i].Some? ==> s[i..i + ms[i].value.len] == Raw(ms[i].value.kind, ms[i].value.body)
  }

  /** The literal slices and the raw text of the tags, concatenated, give back the scanned text. */
  lemma {:induction false} ScanFromRebuilds(s: string, ms: seq<Option<Delim>>, index: nat, p: nat)
    requires Fits(s, ms) && Raws(s, ms) && index <= p <= |s|
    decreases |s| - p
    ensures Flatten(ScanFrom(s, ms, index, p)) == s[index..]
  {
    if p == |s| {
      assert [Text(s[index..])][1..] == [];
    } else {
      match ms[p] {
        case None =>
          ScanSkip(s, ms, index, p);
          ScanFromRebuilds(s, ms, index, p + 1);
        case Some(d) =>
          assert s[p..p + d.len] == Raw(d.kind, d.body);
          ScanFromRebuilds(s, ms, p + d.len, p + d.len);
          RebuildsAfterMatch(s, ms, index, p, d);
      }
    }
  }

  /** The step of `ScanFromRebuilds` for a match at `p`. */
  lemma RebuildsAfterMatch(s: string, ms: seq<Option<Delim>>, index: nat, p: nat, d: Delim)
    requires Fits(s, ms) && index <= p < |s| && ms[p] == Some(d)
    requires s[p..p + d.len] == Raw(d.kind, d.body)
    requires Flatten(ScanFrom(s, ms, p + d.len, p + d.len)) == s[p + d.len..]
    ensures Flatten(ScanFrom(s, ms, index, p)) == s[index..]
  {
    var q := p + d.len;
    var pair, rest := [Text(s[index..p]), Tag(d.kind, d.body)], ScanFrom(s, ms, q, q);
    ScanMatch(s, ms, index, p, d);
    RebuildMatch(s, index, p, q, d.kind, d.body, rest);
    FlattenJoin(ScanFrom(s, ms, index, p), pair + rest, s[index..]);
  }

  lemma FlattenJoin(whole: seq<Piece>, parts: seq<Piece>, t: string)
    requires whole == parts && Flatten(parts) == t
    ensures Flatten(whole) == t
  {
  }

  lemma RebuildMatch(s: string, index: nat, p: nat, q: nat, k: Kind, b: string, rest: seq<Piece>)
    requires index <= p <= q <= |s| && s[p..q] == Raw(k, b) && Flatten(rest) == s[q..]
    ensures Flatten([Text(s[index..p]), Tag(k, b)] + rest) == s[index..]
  {
    FlattenAppend([Text(s[index..p]), Tag(k, b)], rest);
    FlattenPair(s[index..p], k, b);
    SliceSplit(s, index, p, q);
  }

  lemma FlattenPair(t: string, k: Kind, b: string)
    ensures Flatten([Text(t), Tag(k, b)]) == t + Raw(k, b)
  {
    assert [Text(t), Tag(k, b)][1..] == [Tag(k, b)];
    assert [Tag(k, b)][1..] == [];
    assert Flatten([Tag(k, b)]) == Raw(k, b) + [];
    assert Raw(k, b) + [] == Raw(k, b);
  }

  lemma SliceSplit(s: string, i: nat, p: nat, q: nat)
    requires i <= p <= q <= |s|
    ensures s[i..] == s[i..p] + s[p..q] + s[q..]
  {
    assert s[i..] == s[i..p] + s[p..];
    assert s[p..] == s[p..q] + s[q..];
  }

  lemma TokenizeRebuilds(s: string)
    ensures Flatten(Tokenize(s)) == s
  {
    var ms := Table(s);
    forall i | 0 <= i < |ms| && ms[i].Some?
      ensures s[i..i + ms[i].value.len] == Raw(ms[i].value.kind, ms[i].value.body)
    {
      MatchAtRaw(s, i);
    }
    ScanFromRebuilds(s, ms, 0, 0);
  }

  /** Literal text and tags alternate, starting and ending with literal text. */
  predicate Alternating(ps: seq<Piece>)
    decreases |ps|
  {
    if |ps| <= 1 then |ps| == 1 && ps[0].Text?
    else |ps| >= 3 && ps[0].Text? && ps[1].Tag? && Alternating(ps[2..])
  }

  lemma {:induction false} ScanFromAlternates(s: string, ms: seq<Option<Delim>>, index: nat, p: nat)
    requires Fits(s, ms) && index <= p <= |s|
    decreases |s| - p
    ensures Alternating(ScanFrom(s, ms, index, p))
  {
    if p == |s| {
      assert ScanFrom(s, ms, index, p) == [Text(s[index..])];
    } else {
      match ms[p] {
        case None =>
          ScanSkip(s, ms, index, p);
          ScanFromAlternates(s, ms, index, p + 1);
        case Some(d) =>
          var q := p + d.len;
          ScanMatch(s, ms, index, p, d);
          ScanFromAlternates(s, ms, q, q);
          AlternatingPrepend(s[index..p], d.kind, d.body, ScanFrom(s, ms, q, q));
      }
    }
  }

  lemma AlternatingPrepend(t: string, k: Kind, b: string, rest: seq<Piece>)
    requires Alternating(rest)
    ensures Alternating([Text(t), Tag(k, b)] + rest)
  {
    assert ([Text(t), Tag(k, b)] + rest)[2..] == rest;
  }

  lemma TokenizeAlternates(s: string)
    ensures Alternating(Tokenize(s))
  {
    ScanFromAlternates(s, Table(s), 0, 0);
  }

  /** Text with no '<' and no '$' holds no delimiter: it is one literal. */
  lemma {:induction false} ScanFromPlain(s: string, ms: seq<Option<Delim>>, index: nat, p: nat)
    requires Fits(s, ms) && index <= p <= |s|
    requires forall j :: p <= j < |s| ==> ms[j].None?
    decreases |s| - p
    ensures ScanFrom(s, ms, index, p) == [Text(s[index..])]
  {
    if p < |s| {
      ScanSkip(s, ms, index, p);
      ScanFromPlain(s, ms, index, p + 1);
    }
  }

  lemma TokenizePlain(s: string)
    requires forall j :: 0 <= j < |s| ==> s[j] != '<' && s[j] != '$'
    ensures Tokenize(s) == [Text(s)]
  {
    var ms := Table(s);
    forall j | 0 <= j < |s|
      ensures ms[j].None?
    {
      assert MatchAt(s, j).None?;
    }
    ScanFromPlain(s, ms, 0, 0);
  }

  lemma FindCloseNext(s: string, from: nat)
    requires FindClose(s, from).Some? && FindClose(s, from).value > from
    ensures FindClose(s, from + 1) == FindClose(s, from)
  {
  }

  /**
   * Escape and interpolate win over evaluate at the same offset: an evaluate
   * tag whose group starts with '-' or '=' is the one-character group of
   * `<%-%>` or `<%=%>`, where the escape or interpolate alternative, which
   * needs a non-empty group, cannot match.
   */
  lemma EvaluateNeverShadows(s: string, p: nat)
    requires p <= |s| && MatchAt(s, p).Some? && MatchAt(s, p).value.kind == EvaluateTag
    ensures MatchAt(s, p).value.body != ""
    ensures MatchAt(s, p).value.body[0] in {'-', '='} ==> |MatchAt(s, p).value.body| == 1
  {
    var c := FindClose(s, p + 3).value;
    if c > p + 3 {
      // a longer group closes at the same "%>" when read from one character on
      FindCloseNext(s, p + 3);
    }
  }

  /** The smallest text that shows it: `<%-%>` is an evaluate tag whose group is "-". */
  lemma EscapeWithoutBodyIsEvaluate()
    ensures Tokenize("<%-%>") == [Text(""), Tag(EvaluateTag, "-"), Text("")]
  {
    var s := "<%-%>";
    assert OpensAt(s, 0, EscapeTag) && FindClose(s, 4).None?;
    assert !OpensAt(s, 0, InterpolateTag) && !OpensAt(s, 0, EsTemplateTag);
    assert ClosesAt(s, 3);
    assert s[2..3] == "-";
    var d := Delim(EvaluateTag, "-", 5);
    assert MatchAt(s, 0) == Some(d);
    var ms := Table(s);
    ScanMatch(s, ms, 0, 0, d);
    assert s[0..0] == "" && s[5..] == "";
    assert ScanFrom(s, ms, 5, 5) == [Text("")];
  }

  /** Reading the escapes of one character back. */
  lemma ReadEncodeChar(c: char, rest: string)
    ensures ReadLiteral(EncodeChar(c) + rest)
            == (if ReadLiteral(rest).Some? then Some([c] + ReadLiteral(rest).value) else None)
  {
    var r := EncodeChar(c) + rest;
    if c == '\U{2028}' || c == '\U{2029}' {
      ReadUnicodeEscape(c, rest);
    } else if NeedsStringEscape(c) {
      assert r[2..] == rest;
    } else {
      assert r[1..] == rest;
    }
  }

  lemma ReadUnicodeEscape(c: char, rest: string)
    requires c == '\U{2028}' || c == '\U{2029}'
    ensures ReadLiteral(EncodeChar(c) + rest)
            == (if ReadLiteral(rest).Some? then Some([c] + ReadLiteral(rest).value) else None)
  {
    var r := EncodeChar(c) + rest;
    assert r[2..6] == EncodeChar(c)[2..6];
    assert HexChar(r[2..6]) == Some(c);
    assert r[6..] == rest;
  }

  /** A JavaScript engine reads the escaped literal back as the original slice. */
  lemma {:induction false} ReadEscapeLiteral(t: string)
    ensures ReadLiteral(EscapeLiteral(t)) == Some(t)
  {
    if t != [] {
      ReadEscapeLiteral(t[1..]);
      ReadEncodeChar(t[0], EscapeLiteral(t[1..]));
      assert [t[0]] + t[1..] == t;
    }
  }
}

=== FILE: registry.dfy ===
/**
 * Turning a `<template $name="...">` element into a component
 * configuration (`registerElement`), and the window's write-once component
 * registry (`registerComponent`).
 */
module Registration {
  import opened Common
  import opened Dicts
  import opened Types
  import opened HtmlEscape
  import opened Loading
  import opened Elements

  /**
   * A component configuration: the keys set from `$`-attributes and the
   * options (`name`, `render`, `compile`, ...), the `properties`, and the
   * unescaped template.
   */
  datatype Config = Config(settings: Dict<Value>, properties: Dict<PropInfo>, template: string)

  /** Why `registerElement` throws: a `$`-attribute names an unregistered type, or its parse throws. */
  datatype RegisterError = UnknownType(typ: string) | ParseThrew(key: string)

  /** `{name: '', properties: {}}`. */
  function InitialConfig(): Config
  {
    Config(Empty().Put("name", Str("")), Empty(), "")
  }

  predicate IsConfigKey(name: string)
  {
    |name| >= 1 && name[0] == '$'
  }

  /** The type of an attribute `name:type`, `string` when none is written. */
  function AttributeType(key: string): string
  {
    var typ := SplitName(key).1;
    if typ == "" then "string" else typ
  }

  /**
   * One attribute: `$key:type="text"` sets `config[key]` to
   * `types[type].parse(text)`; any other `name:type="text"` sets the
   * property `name` to that type and text.
   */
  function SplitAttribute(c: Config, attr: (string, string), types: Registry): Result<Config, RegisterError>
  {
    var name := SplitName(attr.0).0;
    var typ := AttributeType(attr.0);
    if IsConfigKey(name) then
      if typ !in types then Failure(UnknownType(typ))
      else match types[typ].parse(attr.1, "", map[])
        case Threw => Failure(ParseThrew(name[1..]))
        case Returned(v) => Success(c.(settings := c.settings.Put(name[1..], v)))
    else Success(c.(properties := c.properties.Put(name, PropInfo(typ, Str(attr.1)))))
  }

  /** The attributes in order, stopping at the first that throws. */
  function SplitAttributes(c: Config, attrs: seq<(string, string)>, types: Registry): Result<Config, RegisterError>
    decreases |attrs|
  {
    if attrs == [] then Success(c)
    else
      match SplitAttributes(c, attrs[..|attrs| - 1], types)
      case Failure(e) => Failure(e)
      case Success(before) => SplitAttribute(before, attrs[|attrs| - 1], types)
  }

  /** `Object.assign(config, options)` for the option keys this model carries as settings. */
  function WithOptions(settings: Dict<Value>, options: seq<(string, Value)>): Dict<Value>
    decreases |options|
  {
    if options == [] then settings
    else WithOptions(settings, options[..|options| - 1]).Put(options[|options| - 1].0, options[|options| - 1].1)
  }

  /**
   * `registerElement(el, options)` up to the `registerComponent` call: the
   * element's attributes, in order, become settings and properties; the
   * template is the element's unescaped inner HTML; the options are
   * applied last.
   */
  method RegisterElement(attrs: seq<(string, string)>, inner: string, options: seq<(string, Value)>, types: Registry)
    returns (r: Result<Config, RegisterError>)
    ensures SplitAttributes(InitialConfig(), attrs, types).Failure? ==> r == SplitAttributes(InitialConfig(), attrs, types)
    ensures SplitAttributes(InitialConfig(), attrs, types).Success? ==>
      var split := SplitAttributes(InitialConfig(), attrs, types).value;
      r == Success(Config(WithOptions(split.settings, options), split.properties, Unescape(Some(inner))))
  {
    r := SplitAll(attrs, types);
    if r.Success? {
      var settings := Assign(r.value.settings, options);
      r := Success(Config(settings, r.value.properties, Unescape(Some(inner))));
    }
  }

  /** The loop of `registerElement` over the element's attributes, stopping at the first that throws. */
  method SplitAll(attrs: seq<(string, string)>, types: Registry) returns (r: Result<Config, RegisterError>)
    ensures r == SplitAttributes(InitialConfig(), attrs, types)
  {
    r := Success(InitialConfig());
    var i := 0;
    while i < |attrs| && r.Success?
      invariant i <= |attrs| && SplitAttributes(InitialConfig(), attrs[..i], types) == r
    {
      SplitStep(InitialConfig(), attrs, i, types);
      r := SplitOne(r.value, attrs[i], types);
      i := i + 1;
    }
    if r.Failure? {
      ErrorPersists(InitialConfig(), attrs, i, types);
    } else {
      assert attrs[..i] == attrs;
    }
  }

  /** The body of `registerElement`'s loop for one attribute. */
  method SplitOne(c: Config, attr: (string, string), types: Registry) returns (r: Result<Config, RegisterError>)
    ensures r == SplitAttribute(c, attr, types)
  {
    var (name, _) := SplitName(attr.0);
    var typ := AttributeType(attr.0);
    if IsConfigKey(name) {
      if typ !in types {
        // `types[type]` is undefined: reading its `parse` throws
        r := Failure(UnknownType(typ));
      } else {
        var parsed := types[typ].parse(attr.1, "", map[]);
        if parsed.Threw? {
          r := Failure(ParseThrew(name[1..]));
        } else {
          r := Success(c.(settings := c.settings.Put(name[1..], parsed.v)));
        }
      }
    } else {
      r := Success(c.(properties := c.properties.Put(name, PropInfo(typ, Str(attr.1)))));
    }
  }

  /** `Object.assign(config, options)`: each option key is set in turn. */
  method Assign(settings: Dict<Value>, options: seq<(string, Value)>) returns (r: Dict<Value>)
    ensures r == WithOptions(settings, options)
  {
    r := settings;
    var j := 0;
    while j < |options|
      invariant j <= |options| && r == WithOptions(settings, options[..j])
    {
      assert options[..j + 1][..j] == options[..j];
      r := r.Put(options[j].0, options[j].1);
      j := j + 1;
    }
    assert options[..j] == options;
  }

  /** Some option sets key `k`. */
  predicate OptionNamed(options: seq<(string, Value)>, k: string)
  {
    exists i :: 0 <= i < |options| && options[i].0 == k
  }

  /** Option `i` is the last one that sets its key. */
  predicate LastOption(options: seq<(string, Value)>, i: int)
  {
    0 <= i < |options| && forall j :: i < j < |options| ==> options[j].0 != options[i].0
  }

  lemma OptionNamedSnoc(options: seq<(string, Value)>, k: string)
    requires options != []
    ensures OptionNamed(options, k) <==> OptionNamed(options[..|options| - 1], k) || k == options[|options| - 1].0
  {
    var init := options[..|options| - 1];
    if OptionNamed(options, k) {
      var i :| 0 <= i < |options| && options[i].0 == k;
      if i < |init| {
        assert init[i].0 == k;
      }
    }
    if OptionNamed(init, k) {
      var i :| 0 <= i < |init| && init[i].0 == k;
      assert options[i].0 == k;
    }
  }

  /**
   * `Object.assign(config, options)` adds exactly the keys the options set,
   * and the keys already present keep their order ahead of the new ones.
   */
  lemma {:induction false} WithOptionsKeys(settings: Dict<Value>, options: seq<(string, Value)>)
    decreases |options|
    ensures var r := WithOptions(settings, options);
      && (forall k :: k in r.vals <==> k in settings.vals || OptionNamed(options, k))
      && |settings.keys| <= |r.keys| && r.keys[..|settings.keys|] == settings.keys
  {
    if options != [] {
      var init := options[..|options| - 1];
      WithOptionsKeys(settings, init);
      var before := WithOptions(settings, init);
      var r := WithOptions(settings, options);
      forall k
        ensures k in r.vals <==> k in settings.vals || OptionNamed(options, k)
      {
        OptionNamedSnoc(options, k);
      }
      assert r.keys[..|settings.keys|] == r.keys[..|before.keys|][..|settings.keys|];
    }
  }

  /** The options override: a key an option sets holds the value of the last option that sets it. */
  lemma {:induction false} WithOptionsLastWins(settings: Dict<Value>, options: seq<(string, Value)>)
    decreases |options|
    ensures var r := WithOptions(settings, options);
      forall i :: LastOption(options, i) ==> options[i].0 in r.vals && r.vals[options[i].0] == options[i].1
  {
    if options != [] {
      var n := |options|;
      var init := options[..n - 1];
      WithOptionsLastWins(settings, init);
      var r := WithOptions(settings, options);
      forall i | LastOption(options, i)
        ensures options[i].0 in r.vals && r.vals[options[i].0] == options[i].1
      {
        if i < n - 1 {
          assert init[i] == options[i];
          assert LastOption(init, i);
        }
      }
    }
  }

  /** A key no option sets keeps its value. */
  lemma {:induction false} WithOptionsKeeps(settings: Dict<Value>, options: seq<(string, Value)>, k: string)
    requires k in settings.vals && !OptionNamed(options, k)
    decreases |options|
    ensures k in WithOptions(settings, options).vals && WithOptions(settings, options).vals[k] == settings.vals[k]
  {
    if options != [] {
      OptionNamedSnoc(options, k);
      WithOptionsKeeps(settings, options[..|options| - 1], k);
    }
  }

  /** One more attribute after a successful prefix is one more `SplitAttribute`. */
  lemma SplitStep(c: Config, attrs: seq<(string, string)>, i: nat, types: Registry)
    requires i < |attrs| && SplitAttributes(c, attrs[..i], types).Success?
    ensures SplitAttributes(c, attrs[..i + 1], types)
         == SplitAttribute(SplitAttributes(c, attrs[..i], types).value, attrs[i], types)
  {
    assert attrs[..i + 1][..i] == attrs[..i];
  }

  /** A failure at attribute `i - 1` is the failure of the whole run. */
  lemma {:induction false} ErrorPersists(c: Config, attrs: seq<(string, string)>, i: nat, types: Registry)
    requires i <= |attrs| && SplitAttributes(c, attrs[..i], types).Failure?
    decreases |attrs| - i
    ensures SplitAttributes(c, attrs, types) == SplitAttributes(c, attrs[..i], types)
  {
    if i < |attrs| {
      assert attrs[..i + 1][..i] == attrs[..i];
      ErrorPersists(c, attrs, i + 1, types);
    } else {
      assert attrs[..i] == attrs;
    }
  }

  // ---------------------------------------------------------------------------
  // Properties of the split

  /** The attribute names that become properties. */
  predicate PropertyNamed(attrs: seq<(string, string)>, n: string)
  {
    exists i :: 0 <= i < |attrs| && !IsConfigKey(SplitName(attrs[i].0).0) && n == SplitName(attrs[i].0).0
  }

  /** The attribute names that become settings, without their `$`. */
  predicate SettingNamed(attrs: seq<(string, string)>, k: string)
  {
    exists i :: 0 <= i < |attrs| && IsConfigKey(SplitName(attrs[i].0).0) && k == SplitName(attrs[i].0).0[1..]
  }

  lemma PropertyNamedSnoc(attrs: seq<(string, string)>)
    requires attrs != []
    ensures forall n :: PropertyNamed(attrs, n) <==> PropertyNamed(attrs[..|attrs| - 1], n) || (!IsConfigKey(SplitName(attrs[|attrs| - 1].0).0) && n == SplitName(attrs[|attrs| - 1].0).0)
  {
    assert forall i :: 0 <= i < |attrs| - 1 ==> attrs[..|attrs| - 1][i] == attrs[i];
  }

  lemma SettingNamedSnoc(attrs: seq<(string, string)>)
    requires attrs != []
    ensures forall k :: SettingNamed(attrs, k) <==> SettingNamed(attrs[..|attrs| - 1], k) || (IsConfigKey(SplitName(attrs[|attrs| - 1].0).0) && k == SplitName(attrs[|attrs| - 1].0).0[1..])
  {
    assert forall i :: 0 <= i < |attrs| - 1 ==> attrs[..|attrs| - 1][i] == attrs[i];
  }

  /** One attribute adds at most its own key, to the side its name picks. */
  lemma SplitAttributeKeys(c: Config, attr: (string, string), types: Registry)
    requires SplitAttribute(c, attr, types).Success?
    ensures var r := SplitAttribute(c, attr, types).value;
      var name := SplitName(attr.0).0;
      && (forall n :: n in r.properties.vals <==> n in c.properties.vals || (!IsConfigKey(name) && n == name))
      && (forall k :: k in r.settings.vals <==> k in c.settings.vals || (IsConfigKey(name) && k == name[1..]))
  {
  }

  /** The split keeps both dictionaries well formed. */
  lemma {:induction false} SplitValid(c: Config, attrs: seq<(string, string)>, types: Registry)
    requires c.properties.Valid() && c.settings.Valid()
    requires SplitAttributes(c, attrs, types).Success?
    decreases |attrs|
    ensures SplitAttributes(c, attrs, types).value.properties.Valid()
    ensures SplitAttributes(c, attrs, types).value.settings.Valid()
  {
    if attrs != [] {
      SplitValid(c, attrs[..|attrs| - 1], types);
    }
  }

  /**
   * The split is a partition: when it goes through, the properties are
   * exactly the initial ones and the names of the attributes not starting
   * with `$`.
   */
  lemma {:induction false} SplitProperties(c: Config, attrs: seq<(string, string)>, types: Registry)
    requires SplitAttributes(c, attrs, types).Success?
    decreases |attrs|
    ensures var r := SplitAttributes(c, attrs, types).value;
      forall n :: n in r.properties.vals <==> n in c.properties.vals || PropertyNamed(attrs, n)
  {
    if attrs != [] {
      var init, last := attrs[..|attrs| - 1], attrs[|attrs| - 1];
      var before := SplitAttributes(c, init, types);
      assert before.Success?;
      SplitProperties(c, init, types);
      SplitAttributeKeys(before.value, last, types);
      PropertyNamedSnoc(attrs);
    }
  }

  /** And the settings are exactly the initial keys and the `$`-keys without their `$`. */
  lemma {:induction false} SplitSettings(c: Config, attrs: seq<(string, string)>, types: Registry)
    requires SplitAttributes(c, attrs, types).Success?
    decreases |attrs|
    ensures var r := SplitAttributes(c, attrs, types).value;
      forall k :: k in r.settings.vals <==> k in c.settings.vals || SettingNamed(attrs, k)
  {
    if attrs != [] {
      var init, last := attrs[..|attrs| - 1], attrs[|attrs| - 1];
      var before := SplitAttributes(c, init, types);
      assert before.Success?;
      SplitSettings(c, init, types);
      SplitAttributeKeys(before.value, last, types);
      SettingNamedSnoc(attrs);
    }
  }

  /** The last plain attribute for a name decides that property's type (default `string`) and value. */
  lemma LastPlainAttributeWins(c: Config, attrs: seq<(string, string)>, key: string, text: string, types: Registry)
    requires !IsConfigKey(SplitName(key).0)
    requires SplitAttributes(c, attrs, types).Success?
    ensures var r := SplitAttributes(c, attrs + [(key, text)], types);
      && r.Success? && SplitName(key).0 in r.value.properties.vals
      && r.value.properties.vals[SplitName(key).0] == PropInfo(AttributeType(key), Str(text))
      && (':' !in key ==> AttributeType(key) == "string")
  {
    var all := attrs + [(key, text)];
    assert all[..|all| - 1] == attrs;
    if ':' !in key {
      SplitJoin(key, "");
    }
  }

  /** A `$`-attribute of an unregistered type makes the whole registration throw, wherever it is. */
  lemma {:induction false} UnknownTypeThrows(c: Config, attrs: seq<(string, string)>, i: nat, types: Registry)
    requires i < |attrs| && IsConfigKey(SplitName(attrs[i].0).0) && AttributeType(attrs[i].0) !in types
    decreases |attrs|
    ensures SplitAttributes(c, attrs, types).Failure?
  {
    var init := attrs[..|attrs| - 1];
    if i < |init| {
      assert init[i] == attrs[i];
      UnknownTypeThrows(c, init, i, types);
    }
  }

  /** Attributes without `$` never make the registration throw. */
  lemma {:induction false} PlainAttributesSucceed(c: Config, attrs: seq<(string, string)>, types: Registry)
    requires forall i :: 0 <= i < |attrs| ==> !IsConfigKey(SplitName(attrs[i].0).0)
    decreases |attrs|
    ensures SplitAttributes(c, attrs, types).Success?
  {
    if attrs != [] {
      PlainAttributesSucceed(c, attrs[..|attrs| - 1], types);
    }
  }

  // ---------------------------------------------------------------------------
  // The registry

  /** The message `registerComponent` warns with when a name is taken. */
  function RedefineWarning(name: string): string
  {
    "Can't redefine component " + name
  }

  /** A window's custom element registry and `uifactory.components`. */
  class Window {
    /** The names `customElements` has a definition for. */
    var defined: set<string>
    /** `uifactory.components`. */
    var components: map<string, Config>
    /** What `console.warn` received. */
    var warnings: seq<string>

    constructor()
      ensures defined == {} && components == map[] && warnings == []
    {
      defined, components, warnings := {}, map[], [];
    }

    /**
     * `registerComponent(config)`: a name already defined only warns, and
     * nothing else changes. Otherwise the template's stylesheets are
     * extracted into the head and its scripts into the body, from the
     * first element on, and the name is defined with this configuration.
     */
    method RegisterComponent(name: string, config: Config, head: seq<Extract>, body: seq<Extract>) returns (loader: Loader?)
      modifies this
      ensures name in old(defined) ==>
        && loader == null && defined == old(defined) && components == old(components)
        && warnings == old(warnings) + [RedefineWarning(name)]
      ensures name !in old(defined) ==>
        && loader != null && fresh(loader)
        && defined == old(defined) + {name} && components == old(components)[name := config] && warnings == old(warnings)
        && loader.appended == AppendLog(Head, head, Run(head, 0).0) + AppendLog(Body, body, Run(body, 0).0)
        && loader.waiting == (if Run(head, 0).1 then [Resume(Head, head, RunEnd(head, 0))] else [])
                           + (if Run(body, 0).1 then [Resume(Body, body, RunEnd(body, 0))] else [])
        && loader.scriptsLoaded == !Run(body, 0).1
        && loader.eventScripts == CollectListeners(CollectListeners(Empty(), head, 0, RunEnd(head, 0)), body, 0, RunEnd(body, 0))
    {
      if name in defined {
        warnings := warnings + [RedefineWarning(name)];
        return null;
      }
      loader := new Loader();
      loader.ExtractTemplate(head, body);
      defined := defined + {name};
      components := components[name := config];
    }
  }
}

=== FILE: types.dfy ===
/**
 * The values an element's `$data` holds, and the registry of attribute
 * types (`uifactory.types`): each type parses an attribute string and may
 * turn a value back into attribute text.
 */
module Types {
  import opened Common

  /**
   * A JavaScript value as far as the element logic looks at it: `undefined`,
   * `null`, a string, a thenable (a value with a `then` method, such as the
   * promise of a fetch) and any other value.
   */
  datatype Value = Undefined | Null | Str(s: string) | Obj(id: nat) | Thenable(id: nat)

  /** What a `parse` call does: return a value or throw. */
  datatype Parsed = Returned(v: Value) | Threw

  /**
   * One entry of `uifactory.types`: `parse(value, name, data)` and the
   * optional `stringify(value, name, data)`, which yields the attribute text.
   */
  datatype TypeDesc = TypeDesc(
    parse: (string, string, map<string, Value>) -> Parsed,
    stringify: Option<(Value, string, map<string, Value>) -> string>)

  type Registry = map<string, TypeDesc>

  /** The prefix of `s` before its first ':'. */
  function UpToColon(s: string): (r: string)
    ensures |r| <= |s| && r == s[..|r|] && ':' !in r
    ensures |r| < |s| ==> s[|r|] == ':'
  {
    if s == [] || s[0] == ':' then [] else [s[0]] + UpToColon(s[1..])
  }

  /**
   * `let [name, type] = key.split(':')`: the text before the first ':', and
   * the text between the first and the second ':' ("" when there is no ':').
   */
  function SplitName(key: string): (r: (string, string))
    ensures ':' !in r.0 && ':' !in r.1
    ensures r.0 == UpToColon(key)
  {
    var name := UpToColon(key);
    if |name| == |key| then (name, "") else (name, UpToColon(key[|name| + 1..]))
  }

  /** A key written `name:type` splits back into its two parts; a key with no ':' is all name. */
  lemma SplitJoin(name: string, typ: string)
    requires ':' !in name && ':' !in typ
    ensures typ != "" ==> SplitName(name + ":" + typ) == (name, typ)
    ensures SplitName(name) == (name, "")
  {
    UpToColonAll(name);
    if typ != "" {
      var key := name + ":" + typ;
      UpToColonStops(name, typ);
      assert key[|name| + 1..] == typ;
      UpToColonAll(typ);
    }
  }

  lemma {:induction false} UpToColonAll(s: string)
    requires ':' !in s
    ensures UpToColon(s) == s
  {
    if s != [] {
      UpToColonAll(s[1..]);
    }
  }

  lemma {:induction false} UpToColonStops(name: string, rest: string)
    requires ':' !in name
    ensures UpToColon(name + ":" + rest) == name
  {
    if name != [] {
      assert (name + ":" + rest)[1..] == name[1..] + ":" + rest;
      UpToColonStops(name[1..], rest);
    } else {
      assert (name + ":" + rest)[0] == ':';
    }
  }

  /**
   * The registry key `update` parses an entry with:
   * `types[typename || $properties[propname].type] || types.string`.
   * `declared` is the declared type of the property, "" when there is none.
   */
  function TypeKey(types: Registry, typename: string, declared: string): (k: string)
    requires "string" in types
    ensures k in types
    ensures typename != "" && typename in types ==> k == typename
    ensures typename == "" && declared != "" && declared in types ==> k == declared
    ensures k != "string" ==> k == typename || k == declared
    ensures (typename != "" && typename !in types) || (typename == "" && declared !in types) ==> k == "string"
  {
    var named := if typename != "" then typename else declared;
    if named != "" && named in types then named else "string"
  }

  /** `types.string`: parse keeps the text; the attribute text is the value's string form, `display`. */
  function StringType(display: Value -> string): (t: TypeDesc)
    ensures forall v, n, d :: t.parse(v, n, d) == Returned(Str(v))
    ensures t.stringify.Some?
  {
    TypeDesc((v, n, d) => Returned(Str(v)), Some((x: Value, n: string, d: map<string, Value>) => display(x)))
  }

  /**
   * `types.url`, `types.urljson`, `types.urltext`: a non-empty text is
   * fetched and yields a thenable; the empty text is returned as it is.
   * None of them can stringify.
   */
  function UrlType(fetch: string -> nat): (t: TypeDesc)
    ensures t.stringify.None?
    ensures forall v, n, d :: t.parse(v, n, d).Returned? && (t.parse(v, n, d).v.Thenable? <==> v != "")
  {
    TypeDesc((v, n, d) => if v != "" then Returned(Thenable(fetch(v))) else Returned(Str(v)), None)
  }

  /**
   * The built-in registry. `eval` stands for the `new Function` evaluation
   * the expression types share, `json` for `JSON.stringify`, `display` for
   * the string form `setAttribute` gives a value and `fetch` for starting a
   * request.
   */
  function Builtins(eval: (string, string, map<string, Value>) -> Parsed, json: (Value, string, map<string, Value>) -> string,
                    display: Value -> string, fetch: string -> nat): (types: Registry)
    ensures "string" in types
    ensures forall k :: k in types <==> k in {"string", "number", "boolean", "array", "object", "json", "js", "url", "urljson", "urltext"}
    ensures forall k :: k in types && k in {"url", "urljson", "urltext"} ==> types[k].stringify.None?
    ensures forall k :: k in types && k !in {"url", "urljson", "urltext"} ==> types[k].stringify.Some?
  {
    var expr := TypeDesc(eval, Some(json));
    map[
      "string" := StringType(display),
      "number" := expr, "boolean" := expr, "array" := expr, "object" := expr, "json" := expr, "js" := expr,
      "url" := UrlType(fetch), "urljson" := UrlType(fetch), "urltext" := UrlType(fetch)]
  }
}
